=== FILE: README.md ===
# Quiz-chain solver: a Dafny model of its decisions

The system is a small web service. It accepts a POST on `/quiz` carrying an email, a secret and the URL of a quiz page. It checks the request and then, in a background thread, runs a *quiz chain*:

1. Render the page in a headless browser.
2. Ask a language model to analyse the question.
3. Find the URL that answers must be posted to.
4. Download any data file the question links to, and read it with the reader its suffix selects.
5. Ask the model for the answer and normalise it (`format_answer`).
6. POST it, then follow the reply to the next page.

The chain stops when:
- no URL is left;
- the 180-second budget is spent;
- a reply cannot be read.

The service's external parts are the browser, the language model, `requests`, pandas, the file system, Flask, the wall clock and the threads. Around them sit a handful of deterministic decisions. This project models those decisions as pure Dafny functions over immutable datatypes, and proves what the program promises about them. Every external collaborator becomes a parameter; whether a call raises is part of that parameter.

| module | file | models |
|---|---|---|
| `Wrappers` | wrappers.dfy | `Option` (Python's `None`) and `Result` (a raised exception) |
| `Config` | config.dfy | `QUIZ_TIMEOUT = 180`, `REQUEST_TIMEOUT = 30`, the renderer's 5-second settle wait, the configured email, secret and temporary directory |
| `Text` | text.dfy | string helpers with Python meaning: `endswith`, `in`, `find`, `split`, `join`, `strip`, ASCII `lower()`, regex `IGNORECASE` letter folding |
| `Extraction`, `ExtractionFacts` | extraction.dfy, extraction_facts.dfy | the four regular expressions of `extract_submit_url` and `extract_file_url`, each a predicate "a match starts at i" plus the group it yields. `re.search` is the leftmost such i. |
| `Answer` | answer.dfy | `format_answer` as a precedence classifier, and the submission payload |
| `Download` | download.dfy | the file-name choice of `download_file` and `pathlib`'s `temp_dir / filename` |
| `Routing` | routing.dfy | the case-sensitive suffix test that picks the reader for a downloaded file |
| `Solver`, `SolverFacts` | solver.dfy, solver_facts.dfy | `solve_single_quiz`, `process_task`, `handle_file_task`, `submit_answer`. The calls made are recorded in order, with the one POST. |
| `Chain` | chain.dfy | `solve_quiz_chain` as a step function over a clock reading and a page outcome per iteration |
| `Inbound` | inbound.dfy | `handle_quiz`: the ordered request checks, the status codes, and the decision to start a chain |

How the regular expressions are read:
- `[^\s<>"]+` is the maximal run of such characters (`RunEnd`).
- Greedy backtracking onto a file extension is the *last* dot in the run that an extension follows (`LastExtDot`). Where `xlsx` and `xls` compete at one dot, `xlsx` is preferred.
- `IGNORECASE` is ASCII case folding plus the one non-ASCII equivalence that touches the patterns' letters, the long s (U+017F) for `s`.
- The fallback submission pattern `Post your answer to ([https?://[^\s]+)` is modelled as written. Its group is a single character class (`h t p s ? : / [ ^` and whitespace), so it captures only a run of those characters.

The handler's request body is a JSON value (`JValue`). The handler's `field in data` behaves as Python's does on whatever the body decodes to:
- on an object it tests for a key;
- on a list it tests for an element;
- on a string it tests for a substring;
- on `null`, a number or a boolean it raises `TypeError`.

An exception anywhere in the handler is a 500.

## Model

| member | source | states |
|---|---|---|
| Extraction.Search | quiz_solver.py:91-94 | `re.search` finds nothing exactly when no position of the text starts a match; otherwise it returns the group of the leftmost match |
| Extraction.ExtractSubmitUrl | quiz_solver.py:86-95 | the `/submit` pattern is tried over the whole text first. The fallback phrase is consulted only when `/submit` matches nowhere, whatever the document order. `None` only when neither pattern matches; a found URL is never empty. |
| Extraction.ExtractFileUrl | quiz_solver.py:97-106 | a quoted `href` value ending in a listed extension wins over any bare URL anywhere in the text. Otherwise the first bare file URL is returned, and `None` only when neither matches. |
| Extraction.RunEnd | quiz_solver.py:88 | a repeated character class such as `[^\s<>"]+` consumes exactly the maximal run of class characters from its start |
| Extraction.LastExtDot | quiz_solver.py:100 | backtracking from the end of the URL run stops at the rightmost dot followed by an extension; no later dot in the run is followed by one |
| Extraction.BareCut | quiz_solver.py:100 | a bare file URL ends right after the extension at that rightmost dot, and that extension lies inside the URL run |
| ExtractionFacts.FirstSubmitIsExtracted | quiz_solver.py:88-94 | the leftmost `/submit` match is what `extract_submit_url` returns |
| ExtractionFacts.FullSubmitTokenReturned | quiz_solver.py:88-94 | a `/submit` URL token bounded by separators, with no earlier `/submit` in the text, is returned whole (not truncated) |
| ExtractionFacts.SubmitMatchNeedsSubmit | quiz_solver.py:88 | a match of the first pattern implies that the text contains `/submit` |
| ExtractionFacts.NoSubmitPhraseNoUrl | quiz_solver.py:86-95 | a text with neither `/submit` nor "Post your answer to " has no submission URL |
| ExtractionFacts.FallbackCapturesClassChars | quiz_solver.py:89-94 | every character the fallback group captures belongs to the pattern's accidental character class |
| ExtractionFacts.FallbackKeepsOnlyScheme | quiz_solver.py:89-94 | "Post your answer to https://example…" yields only `https://` when the host starts with a letter outside that class and no `/submit` occurs anywhere in the text |
| Answer.Format | quiz_solver.py:157-171 | exactly one of six outcomes, each with its full condition (both directions): <br>- a non-string stays unchanged; <br>- a dotted string converts as a float, an undotted one as an int; <br>- otherwise a case-insensitive `true`/`false` becomes a boolean; <br>- otherwise JSON parsing is tried; <br>- otherwise the text is kept |
| Answer.FormatKeepsSource | quiz_solver.py:157-171 | every outcome except a boolean carries the original text or value; a boolean is the lower-cased word |
| Answer.MakePayload | quiz_solver.py:141-146 | the payload's answer field keeps the raw answer's text: a boolean only comes from a string, and its source is that string lower-cased. Any other outcome carries the string, or the value's `repr`, unchanged. |
| Answer.DotSkipsInt | quiz_solver.py:159-168 | a dotted text that `float` rejects is never tried as an int; it becomes JSON or stays text |
| Answer.BoolWordsIgnoreCase | quiz_solver.py:165-166 | `true` in any ASCII capitalisation that `int` rejects becomes the boolean `True` |
| Download.HeaderName | data_processor.py:32 | the header yields a name exactly when it contains `filename=` (else `IndexError`); the name never begins or ends with a quote |
| Download.HeaderNameAfterKey | data_processor.py:32 | when the header holds exactly one `filename=`, the name is everything after it, with the surrounding quotes stripped; any other `=` (as in `name="file"`) may appear |
| Download.HeaderNameStopsAtSecondKey | data_processor.py:32 | `split('filename=')[1]` ends at a second `filename=`: the name is the text between the first two, quotes stripped, and the rest of the header is ignored |
| Download.QuotedHeaderRoundTrip | data_processor.py:32 | writing a name into `…filename="name"` and reading the header back gives the name, whenever neither the prefix nor the name holds `filename=` |
| Download.UrlName | data_processor.py:34 | the URL-derived name is never empty and contains neither `/` nor `?` |
| Download.EmptySegmentDefaultName | data_processor.py:34 | an empty last segment, or one that starts with `?` (as in `https://h/?id=3`), gives the name `downloaded_file` |
| Download.UrlNameOfLastSegment | data_processor.py:34 | the name is the URL's last segment, with or without a query string after it |
| Download.TrailingSlashDefaultName | data_processor.py:34 | a URL ending in `/` gives `downloaded_file` |
| Download.ChooseName | data_processor.py:30-34 | a non-empty explicit name is used as given. Without one, a header decides and the URL is ignored: the name is the header's `filename=` value, and the choice fails (`IndexError`) exactly when the header has no `filename=`. With no header, the URL's name is used. |
| Download.DownloadFile | data_processor.py:24-44 | a failed GET gives `FetchFailed`; a failed name choice passes its error on; otherwise the download succeeds exactly when the path `temp_dir / name` can be written, and returns that path for the chosen name |
| Download.PathEndsWithName | data_processor.py:36-41 | for a plain relative name, the returned path is the name itself or ends in `/name`, so the path's suffix is the name's |
| Download.AbsoluteNameReplacesDir | data_processor.py:36 | an absolute header file name discards the temporary directory |
| Routing.RouteOf | quiz_solver.py:120-134 | each reader is chosen exactly when its suffix test holds (both directions), in the order `.pdf`, `.csv`, `.xlsx`/`.xls`, then raw text |
| Routing.UpperCaseSuffixIsText | quiz_solver.py:120-134 | the test is case-sensitive: `.CSV`, `.PDF`, `.XLSX` and `.XLS` files are read as raw text |
| Routing.SavedPathRoutesAsName | data_processor.py:36-41 | the saved path routes exactly as the plain file name does, whatever the temporary directory: no suffix test can reach past the `/` before the name |
| Routing.CsvFileReadAsCsv | data_processor.py:36-41 | a saved `….csv` file is read as CSV, wherever the temporary directory is |
| Routing.CsvLinkReadAsCsv | quiz_solver.py:118-124 | a link `…/name.csv?query` with no header is saved as `name.csv` and read by the CSV reader |
| Solver.FileTask | quiz_solver.py:116-137 | the file path: fetch first, never the question-only context. After a successful download, the reader for the saved path's suffix is called next, and when it reads the file the answer is the one given with that reader's context. An answer implies all of these steps succeeded. |
| Solver.ProcessTask | quiz_solver.py:108-114 | with no file link, the question alone is reasoned about. With a link, the work is exactly `handle_file_task` on the first link, and the question-only context is never used. Any answer comes from the last reasoning call. |
| Solver.OnPage | quiz_solver.py:71-81 | with a failed analysis or no submission URL, nothing more happens and `None` is returned. Otherwise the task's calls follow the render and the analysis, and an obtained answer is always posted: the result is the server's reply, or `None` when the POST or its decoding fails. The POST goes to the found submission URL with a 30-second timeout; its body holds the quiz page URL, the configured credentials and `format_answer` of the last reasoning call's answer. |
| Solver.SolveSingle | quiz_solver.py:63-84 | a failed render gives `None` with no further call. A page without a submission URL is never processed or answered. When the analysis succeeds, a submission URL is found and the task yields an answer, that answer is posted to `extract_submit_url` of the rendered text, formatted, and the server's reply is returned. Every failure is swallowed into `None`. |
| SolverFacts.NoSubmitTextNeverPosts | quiz_solver.py:72-76 | a page mentioning neither `/submit` nor "Post your answer to " returns `None` and posts nothing |
| SolverFacts.PostsToTheWholeToken | quiz_solver.py:72-81 | a page whose `/submit` URL stands alone is answered at exactly that URL, and is answered whenever the analysis and the task succeed |
| SolverFacts.PostedAnswerKeepsReasoning | quiz_solver.py:141-146 | the posted body names the quiz page URL, and its answer carries the reasoning step's answer unchanged, or lower-cased when `format_answer` made it a boolean |
| SolverFacts.CsvLinkReadByCsvReader | quiz_solver.py:116-126 | a linked `…/name.csv?query` downloaded without a `Content-Disposition` header is read by the CSV reader, and its answer is the one given with the CSV context |
| SolverFacts.FileLinkSkipsQuestionContext | quiz_solver.py:108-112 | a question that links a file is never answered from the question alone |
| Chain.Step | quiz_solver.py:29-59 | one loop iteration: <br>- an empty URL ends the loop; <br>- no time left ends it without solving; <br>- otherwise the page is visited; <br>- `None` or a non-object reply ends it (the raise at line 42 or 49 is caught); <br>- a correct answer moves to the reply's URL or completes; <br>- a wrong answer moves only to a new non-empty URL, else pauses. <br>`attempt` grows by one per iteration that does not break. |
| Chain.Run | quiz_solver.py:29-59 | iterating keeps earlier visits and stamps each new visit with its iteration's clock reading. A running chain consumes every iteration's input. A halted chain stays halted. |
| Chain.RunValid | quiz_solver.py:25-56 | at every point, `attempt` is the number of completed iterations plus one. A running chain has seen only object replies. |
| Chain.VisitsWithinBudget | quiz_solver.py:29-35 | every page is started with time left: less than 180 seconds after the start |
| Chain.AtMostThirtySixPages | quiz_solver.py:29-35 | since each render waits 5 seconds, at most 36 pages are visited |
| Chain.WrongWithoutUrlRetries | quiz_solver.py:48-56 | wrong answers without a new URL keep retrying the same page, pausing once per visit, until the budget runs out |
| Chain.CorrectFollowsNext | quiz_solver.py:42-47 | a correct answer sets the current URL to the reply's URL, and completes the chain when that is absent or empty |
| Chain.WrongMovesOnlyToNewUrl | quiz_solver.py:48-54 | after a wrong answer the URL changes exactly when the reply names a different non-empty URL |
| Chain.NoSubmitUrlEndsChain | quiz_solver.py:40-59 | a first page without a submission URL ends the chain as failed after one visit, with `attempt` still 1 |
| Inbound.Member | app.py:38 | `field in data` raises exactly on `null`, numbers and booleans |
| Inbound.CheckFields | app.py:36-39 | all fields are present exactly when every `in` test is true. A reported missing field is the first absent one, after all earlier ones were present. |
| Inbound.FirstAbsentReported | app.py:37-39 | the loop reports the first absent field |
| Inbound.HandleQuiz | app.py:29-65 | a chain is launched exactly when the reply is 200. That happens exactly for a JSON object holding the three fields with the configured email and secret, and a thread that starts. The launch and reply carry the request's URL and the credentials. Errors are 400, 403 or 500. A non-JSON request gets 400 "Request must be JSON". A body that does not parse, a list body that passes the field loop, or a thread that fails to start, gets 500 "Internal server error". |
| Inbound.FirstMissingFieldNamed | app.py:36-39 | the first missing field, in the order email, secret, url, is the one the 400 names |
| Inbound.WrongEmailReportedFirst | app.py:41-45 | a wrong email is reported as 403 "Invalid email", even when the secret is wrong too |
| Inbound.WrongSecretReported | app.py:44-45 | with the right email, a wrong secret is refused with 403 "Invalid secret" |
| Inbound.StringBodyIsServerError | app.py:37-42 | a JSON string mentioning the three field names passes the field loop, then indexing raises: 500, not 400 |
| Inbound.ListBodyIsServerError | app.py:37-42 | a JSON list holding the three field names passes the field loop, then indexing raises: 500, not 400 |
| Inbound.ScalarBodyIsServerError | app.py:37-38 | a `null`, numeric or boolean body makes `in` raise: 500 |

## Left out

- The language model's calls are modelled as `Env` fields: the analysis (`analysisOk`) and the answer per context (`reason`). Their prompts and text are not modelled.
- The browser's rendering is `Env.page` (`None`: it raised). So is its `#result` override, which only changes which text is returned.
- The HTTP GET, `raise_for_status` and the response headers are `Env.fetched`.
- The file write is `canWrite`.
- The PDF, CSV and Excel readers are `readOk`. The `df.shape` text in the CSV context label and `analyze_dataframe` are not modelled.
- The submission POST, its status check and JSON decoding are `Env.reply`. A reply is abstracted to its `correct` truthiness and a string-or-absent `url`. A non-string `url` value in a reply, or in the inbound request, is not modelled.
- `float()`, `int()` and `json.loads` are predicates on the text (`Parsers`). The parsed value is represented by its source text; floating-point values are not modelled.
- Wall-clock time is a real-valued reading supplied per loop iteration, with no floating-point rounding.
- `sleep(1)` is counted (`pauses`) instead of advancing the clock.
- Threads are not modelled: one chain with its own start time. The shared `QuizSolver` instance, and the race on its `start_time` when two chains run at once, are out of scope.
- Flask routing, CORS, the `/health` and `/` endpoints, logging, environment loading and `Config.validate` are not modelled.
- Path joining models POSIX `pathlib`, keeping the non-empty components other than `.`. A leading `//`, which `pathlib` keeps as two slashes, is not distinguished from `/`.
- The `Content-Disposition` header is looked up exactly as given. The case-insensitivity of the `requests` header dictionary is not modelled.
- Chain.Run: `Run` consumes a finite sequence of iteration inputs. A loop that would run longer is observed after those iterations. Termination of the real loop rests on the clock, which Chain.AtMostThirtySixPages bounds under the 5-second render wait.

=== FILE: answer.dfy ===
/**
 * `format_answer` and the submission payload. The three conversions the
 * program attempts (`float`, `int`, `json.loads`) are parameters: each is a
 * predicate "this text converts without raising", and the converted value is
 * represented by the text it was converted from.
 */
module Answer {
  import opened Text

  /** The answer the reasoning step produced: a string, or any other value (its printed form). */
  datatype Raw = Str(text: string) | Other(repr: string)

  /** What `format_answer` returns, by the conversion that produced it. */
  datatype Formatted =
    | FloatValue(source: string)  // float(source)
    | IntValue(source: string)    // int(source)
    | BoolValue(b: bool)
    | JsonValue(source: string)   // json.loads(source)
    | TextValue(text: string)     // the string, unchanged
    | Unchanged(repr: string)     // a non-string, returned as it came

  /** Whether `float(s)`, `int(s)` and `json.loads(s)` succeed; their parsing rules are not modelled. */
  datatype Parsers = Parsers(parsesFloat: string -> bool, parsesInt: string -> bool, parsesJson: string -> bool)

  /** The body of the submission POST. */
  datatype Payload = Payload(email: string, secret: string, url: string, answer: Formatted)

  /** `s.lower() in ['true', 'false']`; ASCII lowering is exact here, as no other character lowers to these letters. */
  predicate IsBoolWord(s: string) {
    LowerAscii(s) == "true" || LowerAscii(s) == "false"
  }

  /** The `try` block succeeds: a dotted text that `float` accepts, or an undotted one that `int` accepts. */
  predicate ConvertsAsNumber(s: string, p: Parsers) {
    if '.' in s then p.parsesFloat(s) else p.parsesInt(s)
  }

  /** `format_answer`: numbers first, then the two boolean words, then JSON, else the text itself. */
  function Format(a: Raw, p: Parsers): (r: Formatted)
    ensures a.Other? <==> r.Unchanged?
    ensures r.FloatValue? <==> a.Str? && '.' in a.text && p.parsesFloat(a.text)
    ensures r.IntValue? <==> a.Str? && '.' !in a.text && p.parsesInt(a.text)
    ensures r.BoolValue? <==> a.Str? && !ConvertsAsNumber(a.text, p) && IsBoolWord(a.text)
    ensures r.JsonValue? <==> a.Str? && !ConvertsAsNumber(a.text, p) && !IsBoolWord(a.text) && p.parsesJson(a.text)
    ensures r.TextValue? <==> a.Str? && !ConvertsAsNumber(a.text, p) && !IsBoolWord(a.text) && !p.parsesJson(a.text)
  {
    match a
    case Other(repr) => Unchanged(repr)
    case Str(s) =>
      if '.' in s && p.parsesFloat(s) then FloatValue(s)
      else if '.' !in s && p.parsesInt(s) then IntValue(s)
      else if IsBoolWord(s) then BoolValue(LowerAscii(s) == "true")
      else if p.parsesJson(s) then JsonValue(s)
      else TextValue(s)
  }

  /** The text a formatted answer was obtained from, with a boolean read back as its lower-case word. */
  function SourceOf(r: Formatted): string {
    match r
    case FloatValue(s) => s
    case IntValue(s) => s
    case BoolValue(b) => if b then "true" else "false"
    case JsonValue(s) => s
    case TextValue(s) => s
    case Unchanged(s) => s
  }

  /**
   * Nothing is lost by formatting: every result but a boolean carries the
   * original text or value, and a boolean is the lower-cased answer.
   */
  lemma FormatKeepsSource(a: Raw, p: Parsers)
    ensures Format(a, p).BoolValue? ==> a.Str? && SourceOf(Format(a, p)) == LowerAscii(a.text)
    ensures !Format(a, p).BoolValue? ==> SourceOf(Format(a, p)) == (if a.Str? then a.text else a.repr)
  {
  }

  /** A dotted text that `float` rejects is never tried as an integer, whatever `int` would say. */
  lemma {:induction false} DotSkipsInt(s: string, p: Parsers)
    requires '.' in s && !p.parsesFloat(s)
    ensures !Format(Str(s), p).IntValue? && !Format(Str(s), p).FloatValue?
    ensures Format(Str(s), p) == (if p.parsesJson(s) then JsonValue(s) else TextValue(s))
  {
    assert !IsBoolWord(s) by {
      DottedIsNoBoolWord(s);
    }
  }

  /** The boolean words have no dot. */
  lemma {:induction false} DottedIsNoBoolWord(s: string)
    requires '.' in s
    ensures !IsBoolWord(s)
  {
    var k :| 0 <= k < |s| && s[k] == '.';
    assert LowerAscii(s)[k] == '.';
    assert '.' in LowerAscii(s);
  }

  /** The boolean words are recognised in any ASCII capitalisation, when `int` rejects them. */
  lemma {:induction false} BoolWordsIgnoreCase(s: string, p: Parsers)
    requires |s| == 4 && s[0] in "tT" && s[1] in "rR" && s[2] in "uU" && s[3] in "eE"
    requires !p.parsesInt(s)
    ensures Format(Str(s), p) == BoolValue(true)
  {
    assert LowerAscii(s) == "true";
  }

  /** `submit_answer`'s payload: the quiz page URL (not the submission URL) and the formatted answer. */
  function MakePayload(email: string, secret: string, quizUrl: string, answer: Raw, p: Parsers): (r: Payload)
    ensures r.answer.BoolValue? ==> answer.Str? && SourceOf(r.answer) == LowerAscii(answer.text)
    ensures !r.answer.BoolValue? ==> SourceOf(r.answer) == (if answer.Str? then answer.text else answer.repr)
  {
    FormatKeepsSource(answer, p);
    Payload(email, secret, quizUrl, Format(answer, p))
  }
}

=== FILE: chain.dfy ===
/**
 * `solve_quiz_chain`: visit quiz pages one after another until no URL is
 * left, the three-minute budget is spent, or a page's reply cannot be read.
 * The clock is a parameter: each loop iteration receives the time read at its
 * top (seconds, as a real) and the outcome of solving the page it visits.
 * The one-second sleep is recorded, not taken.
 */
module Chain {
  import opened Wrappers
  import opened Config
  import opened Extraction
  import opened Solver

  /** Why the loop ended. */
  datatype Halt =
    | NoUrl      // `while current_url` found no (or an empty) URL
    | TimedOut   // the remaining time was not positive
    | Completed  // a correct answer with no next URL
    | Failed     // the reply was None or not an object, so reading it raised

  /** One page visited: its URL, the clock reading at the top of that iteration, and the outcome. */
  datatype Visit = Visit(url: string, at: real, outcome: Outcome)

  /** One loop iteration's inputs: the clock reading and what solving the current page returns. */
  datatype Tick = Tick(now: real, outcome: Outcome)

  /** The loop's state: `start_time`, `current_url`, `attempt`, plus what happened so far. */
  datatype Chain = Chain(start: real, current: Option<string>, attempt: nat,
                         visits: seq<Visit>, pauses: nat, halt: Option<Halt>)

  /** Python truthiness of a URL value: present and non-empty. */
  predicate Truthy(u: Option<string>) {
    u.Some? && u.value != []
  }

  /** The seconds left at clock reading `now`. */
  function Remaining(c: Chain, now: real): real {
    QuizTimeout as real - (now - c.start)
  }

  /** The state on entry to the loop. */
  function Start(start: real, url: Option<string>): (c: Chain)
    ensures Valid(c) && c.halt.None? && c.current == url
  {
    Chain(start, url, 1, [], 0, None)
  }

  /** Whether the halt reason ends the loop in the middle of an iteration, before `attempt += 1`. */
  predicate HaltsMidIteration(h: Option<Halt>) {
    h == Some(Completed) || h == Some(Failed)
  }

  /**
   * What holds between iterations: `attempt` counts the visits that ran to
   * the end of the loop body, plus one; every visit started with time left.
   */
  predicate Valid(c: Chain) {
    && c.attempt == |c.visits| + (if HaltsMidIteration(c.halt) then 0 else 1)
    && (forall k :: 0 <= k < |c.visits| ==> c.visits[k].at - c.start < QuizTimeout as real)
    && c.pauses <= |c.visits|
    && (c.halt.None? ==> forall k :: 0 <= k < |c.visits| ==> c.visits[k].outcome.Object?)
  }

  /** One iteration of the `while` loop, from its test to `attempt += 1` or a `break`. */
  function Step(c: Chain, t: Tick): (r: Chain)
    requires c.halt.None?
    ensures r.start == c.start
    ensures !Truthy(c.current) ==> r == c.(halt := Some(NoUrl))
    ensures Truthy(c.current) && Remaining(c, t.now) <= 0.0 ==> r == c.(halt := Some(TimedOut))
    ensures Truthy(c.current) && Remaining(c, t.now) > 0.0 ==>
              r.visits == c.visits + [Visit(c.current.value, t.now, t.outcome)]
    ensures Valid(c) ==> Valid(r)
    ensures r.halt == Some(Completed) ==> t.outcome.Object? && t.outcome.correct && !Truthy(r.current)
    ensures r.halt == Some(Failed) <==> Truthy(c.current) && Remaining(c, t.now) > 0.0 && !t.outcome.Object?
    ensures r.halt.None? ==> Truthy(c.current) && t.outcome.Object? && r.attempt == c.attempt + 1
    ensures Truthy(c.current) && Remaining(c, t.now) > 0.0 && t.outcome.Object? ==>
              r.current == (if t.outcome.correct || (Truthy(t.outcome.url) && t.outcome.url != c.current)
                            then t.outcome.url else c.current)
    ensures r.pauses == c.pauses + (if r.halt.None? && t.outcome.Object? && !t.outcome.correct && (!Truthy(t.outcome.url) || t.outcome.url == c.current) then 1 else 0)
  {
    if !Truthy(c.current) then c.(halt := Some(NoUrl))
    else if Remaining(c, t.now) <= 0.0 then c.(halt := Some(TimedOut))
    else
      var seen := c.(visits := c.visits + [Visit(c.current.value, t.now, t.outcome)]);
      match t.outcome
      case NoResult => seen.(halt := Some(Failed))
      case NonObject => seen.(halt := Some(Failed))
      case Object(correct, next) =>
        if correct then
          if !Truthy(next) then seen.(current := next, halt := Some(Completed))
          else seen.(current := next, attempt := c.attempt + 1)
        else if Truthy(next) && next != c.current then seen.(current := next, attempt := c.attempt + 1)
        else seen.(pauses := c.pauses + 1, attempt := c.attempt + 1)
  }

  /** The loop over a sequence of iterations' inputs, stopping at the first halt or when the inputs run out. */
  function Run(c: Chain, ticks: seq<Tick>): (r: Chain)
    ensures r.start == c.start
    ensures |c.visits| <= |r.visits| <= |c.visits| + |ticks|
    ensures r.visits[..|c.visits|] == c.visits
    ensures forall k :: |c.visits| <= k < |r.visits| ==> r.visits[k].at == ticks[k - |c.visits|].now
    ensures r.halt.None? && c.halt.None? ==> |r.visits| == |c.visits| + |ticks|
    ensures c.halt.Some? ==> r == c
    decreases |ticks|
  {
    if c.halt.Some? || ticks == [] then c
    else Run(Step(c, ticks[0]), ticks[1..])
  }

  /** The loop keeps its invariant over any number of iterations. */
  lemma {:induction false} RunValid(c: Chain, ticks: seq<Tick>)
    requires Valid(c)
    ensures Valid(Run(c, ticks))
    decreases |ticks|
  {
    if c.halt.None? && ticks != [] {
      RunValid(Step(c, ticks[0]), ticks[1..]);
    }
  }

  /**
   * Every page is started with time left: no visit's clock reading is 180 or
   * more seconds after the start.
   */
  lemma {:induction false} VisitsWithinBudget(start: real, url: Option<string>, ticks: seq<Tick>)
    ensures var r := Run(Start(start, url), ticks);
            forall k :: 0 <= k < |r.visits| ==> r.visits[k].at < start + QuizTimeout as real
  {
    RunValid(Start(start, url), ticks);
  }

  /**
   * Because rendering waits five seconds on every page, clock readings at
   * least that far apart bound the chain to 36 pages, whatever the replies.
   */
  lemma {:induction false} AtMostThirtySixPages(start: real, url: Option<string>, ticks: seq<Tick>)
    requires forall k :: 0 <= k < |ticks| ==> ticks[k].now >= start + (RenderSettleSeconds * k) as real
    ensures |Run(Start(start, url), ticks).visits| <= 36
  {
    var r := Run(Start(start, url), ticks);
    VisitsWithinBudget(start, url, ticks);
    if |r.visits| > 0 {
      var k := |r.visits| - 1;
      assert r.visits[k].at == ticks[k].now;
      assert start + (RenderSettleSeconds * k) as real < start + QuizTimeout as real;
    }
  }

  /**
   * A page answered wrongly with no new URL is retried: the chain stays on
   * the same URL and sleeps once per such visit until the budget runs out.
   */
  lemma {:induction false} WrongWithoutUrlRetries(c: Chain, ticks: seq<Tick>)
    requires c.halt.None? && Truthy(c.current)
    requires forall k :: 0 <= k < |ticks| ==> ticks[k].outcome == Object(false, None)
    ensures var r := Run(c, ticks);
            && r.current == c.current
            && r.pauses == c.pauses + (|r.visits| - |c.visits|)
            && (r.halt.None? || r.halt == Some(TimedOut))
            && forall k :: |c.visits| <= k < |r.visits| ==> r.visits[k].url == c.current.value
    decreases |ticks|
  {
    if ticks != [] {
      var c' := Step(c, ticks[0]);
      if c'.halt.None? {
        WrongWithoutUrlRetries(c', ticks[1..]);
        var r := Run(c', ticks[1..]);
        assert r.visits[..|c'.visits|] == c'.visits;
        forall k | |c.visits| <= k < |r.visits|
          ensures r.visits[k].url == c.current.value
        {
          if k == |c.visits| {
            assert r.visits[k] == c'.visits[k];
          }
        }
      }
    }
  }

  /**
   * A correct answer leads to the URL the reply names, and a reply without
   * one completes the chain: the loop never revisits a page it answered
   * correctly unless told to.
   */
  lemma CorrectFollowsNext(c: Chain, t: Tick)
    requires c.halt.None? && Truthy(c.current) && Remaining(c, t.now) > 0.0
    requires t.outcome.Object? && t.outcome.correct
    ensures Step(c, t).current == t.outcome.url
    ensures Step(c, t).halt == (if Truthy(t.outcome.url) then None else Some(Completed))
  {
  }

  /** A wrong answer moves on only to a new, non-empty URL. */
  lemma WrongMovesOnlyToNewUrl(c: Chain, t: Tick)
    requires c.halt.None? && Truthy(c.current) && Remaining(c, t.now) > 0.0
    requires t.outcome.Object? && !t.outcome.correct
    ensures Step(c, t).halt.None?
    ensures Step(c, t).current != c.current <==> Truthy(t.outcome.url) && t.outcome.url != c.current
  {
  }

  /**
   * A first page whose text holds no submission URL ends the chain at once:
   * `solve_single_quiz` returns None, and reading the reason from None raises.
   */
  lemma NoSubmitUrlEndsChain(start: real, now: real, url: string, settings: Settings, env: Env)
    requires url != [] && now - start < QuizTimeout as real
    requires env.page.Some? && ExtractSubmitUrl(env.page.value).None?
    ensures var r := Step(Start(start, Some(url)), Tick(now, SolveSingle(url, settings, env).result));
            r.halt == Some(Failed) && r.attempt == 1 && r.visits == [Visit(url, now, NoResult)]
  {
  }
}

=== FILE: config.dfy ===
/** The fixed configuration of the quiz agent. */
module Config {

  /** Seconds a chain may run before no further page is started (config.py, QUIZ_TIMEOUT). */
  const QuizTimeout: nat := 180

  /** Seconds each outbound HTTP request may take (config.py, REQUEST_TIMEOUT). */
  const RequestTimeout: nat := 30

  /** Seconds the renderer waits on every page after the network settles (wait_time=5000 ms). */
  const RenderSettleSeconds: nat := 5

  /**
   * The values the program reads from its environment at startup, passed
   * explicitly instead of being read from a process-wide class.
   */
  datatype Settings = Settings(email: string, secret: string, tempDir: string)
}

=== FILE: download.dfy ===
/**
 * The file-name and path choice of `DataProcessor.download_file`: an explicit
 * name, else the `Content-Disposition` header, else the last segment of the
 * URL; then `str(temp_dir / filename)` with the path rules of `pathlib` on
 * POSIX. The HTTP GET and the write to disk are parameters.
 */
module Download {
  import opened Wrappers
  import opened Text

  const FilenameKey: string := "filename="
  const DefaultName: string := "downloaded_file"

  /** Why a download raised. */
  datatype DownloadError =
    | FetchFailed         // requests.get or raise_for_status raised
    | NoFilenameInHeader  // the header has no `filename=`: IndexError
    | WriteFailed         // opening or writing the target path raised

  /** What the GET returned that the name choice reads: the `Content-Disposition` header, if any. */
  datatype Fetched = Fetched(contentDisposition: Option<string>)

  /**
   * `header.split('filename=')[1].strip('"')`: the text between the first
   * `filename=` and the next one (or the end), without surrounding quotes;
   * `None` where the indexing raises.
   */
  function HeaderName(h: string): (r: Option<string>)
    ensures r.None? <==> !Contains(h, FilenameKey)
    ensures r.Some? ==> r.value == [] || (r.value[0] != '"' && r.value[|r.value| - 1] != '"')
  {
    match IndexOf(h, FilenameKey, 0)
    case None => None
    case Some(k) =>
      var from := k + |FilenameKey|;
      var piece := match IndexOf(h, FilenameKey, from)
                   case None => h[from..]
                   case Some(k') => h[from..k'];
      Some(Strip(piece, '"'))
  }

  /** `url.split('/')[-1].split('?')[0] or 'downloaded_file'`. */
  function UrlName(url: string): (r: string)
    ensures r != [] && '/' !in r && '?' !in r
  {
    var seg := url[AfterLast(url, '/')..];
    var name := seg[..FirstIndex(seg, '?')];
    if name == [] then DefaultName else name
  }

  /** The file name `download_file` settles on, or the error its header lookup raises. */
  function ChooseName(url: string, explicit: Option<string>, header: Option<string>): (r: Result<string, DownloadError>)
    ensures explicit.Some? && explicit.value != [] ==> r == Success(explicit.value)
    ensures r.Failure? ==> r.error == NoFilenameInHeader && header.Some? && !Contains(header.value, FilenameKey)
    ensures (explicit.None? || explicit.value == []) && header.None? ==> r == Success(UrlName(url))
    ensures (explicit.None? || explicit.value == []) && header.Some? ==>
              && (r.Failure? <==> !Contains(header.value, FilenameKey))
              && (r.Success? ==> Some(r.value) == HeaderName(header.value))
  {
    if explicit.Some? && explicit.value != [] then Success(explicit.value)
    else if header.Some? then
      match HeaderName(header.value)
      case None => Failure(NoFilenameInHeader)
      case Some(n) => Success(n)
    else Success(UrlName(url))
  }

  /** The parts `pathlib` keeps of a path string: its `/`-separated pieces except empty ones and `.`. */
  function Components(p: string): (cs: seq<string>)
    ensures forall k :: 0 <= k < |cs| ==> cs[k] != [] && cs[k] != "." && '/' !in cs[k]
  {
    KeepParts(SplitOn(p, '/'))
  }

  /** Drops the empty and `.` pieces, keeping the order of the rest. */
  function KeepParts(parts: seq<string>): (cs: seq<string>)
    requires forall k :: 0 <= k < |parts| ==> '/' !in parts[k]
    ensures |cs| <= |parts|
    ensures forall k :: 0 <= k < |cs| ==> cs[k] != [] && cs[k] != "." && '/' !in cs[k]
  {
    if parts == [] then []
    else if parts[0] == [] || parts[0] == "." then KeepParts(parts[1..])
    else [parts[0]] + KeepParts(parts[1..])
  }

  predicate IsAbsolute(p: string) {
    |p| > 0 && p[0] == '/'
  }

  /** `str()` of a path: its components joined by `/`, a leading `/` when absolute, `.` for an empty relative path. */
  function Render(absolute: bool, cs: seq<string>): string {
    if absolute then "/" + JoinWith(cs, '/')
    else if cs == [] then "."
    else JoinWith(cs, '/')
  }

  /** `str(Path(dir) / name)`: an absolute name replaces the directory. */
  function JoinPath(dir: string, name: string): (r: string)
    ensures r != []
  {
    if IsAbsolute(name) then Render(true, Components(name))
    else
      var cs := Components(dir) + Components(name);
      if IsAbsolute(dir) then "/" + JoinWith(cs, '/')
      else if cs == [] then "." else JoinWith(cs, '/')
  }

  /**
   * `download_file` after the GET: choose the name, join it to the temporary
   * directory, write there. `canWrite` says which paths can be opened and written.
   */
  function DownloadFile(url: string, explicit: Option<string>, fetched: Option<Fetched>,
                        canWrite: string -> bool, dir: string): (r: Result<string, DownloadError>)
    ensures fetched.None? <==> r == Failure(FetchFailed)
    ensures r.Success? ==> canWrite(r.value)
    ensures r.Success? ==> fetched.Some? && ChooseName(url, explicit, fetched.value.contentDisposition).Success?
                           && r.value == JoinPath(dir, ChooseName(url, explicit, fetched.value.contentDisposition).value)
    ensures fetched.Some? && ChooseName(url, explicit, fetched.value.contentDisposition).Failure? ==>
              r == Failure(ChooseName(url, explicit, fetched.value.contentDisposition).error)
    ensures fetched.Some? && ChooseName(url, explicit, fetched.value.contentDisposition).Success? ==>
              (r.Success? <==> canWrite(JoinPath(dir, ChooseName(url, explicit, fetched.value.contentDisposition).value)))
  {
    match fetched
    case None => Failure(FetchFailed)
    case Some(f) =>
      match ChooseName(url, explicit, f.contentDisposition)
      case Failure(e) => Failure(e)
      case Success(name) =>
        var path := JoinPath(dir, name);
        if canWrite(path) then Success(path) else Failure(WriteFailed)
  }

  /** A name without `/` that is neither empty nor `.` is a single component. */
  lemma {:induction false} PlainNameIsOneComponent(name: string)
    requires name != [] && name != "." && '/' !in name
    ensures Components(name) == [name]
  {
    assert FirstIndex(name, '/') == |name|;
    assert SplitOn(name, '/') == [name];
    assert KeepParts([name]) == [name] + KeepParts([]);
  }

  /**
   * A relative file name without `/` ends the path `download_file` returns,
   * after a separator unless the directory contributes nothing, so the path's
   * suffix is the name's.
   */
  lemma {:induction false} PathEndsWithName(dir: string, name: string)
    requires name != [] && name != "." && '/' !in name
    ensures var r := JoinPath(dir, name); r == name || EndsWith(r, "/" + name)
    ensures EndsWith(JoinPath(dir, name), name)
  {
    PlainNameIsOneComponent(name);
    var cs := Components(dir);
    JoinAppend(cs, '/', name);
    var r := JoinPath(dir, name);
    if cs == [] {
      assert JoinWith([name], '/') == name;
      if IsAbsolute(dir) {
        assert r == "" + "/" + name;
        SeparatedSuffix("", name);
      } else {
        assert r == name;
      }
    } else {
      var j := JoinWith(cs, '/');
      assert JoinWith(cs + [name], '/') == j + "/" + name;
      if IsAbsolute(dir) {
        assert r == ("/" + j) + "/" + name;
        SeparatedSuffix("/" + j, name);
      } else {
        assert r == j + "/" + name;
        SeparatedSuffix(j, name);
      }
    }
  }

  /** `pre/name` ends with `/name` and with `name`. */
  lemma SeparatedSuffix(pre: string, name: string)
    ensures EndsWith(pre + "/" + name, "/" + name)
    ensures EndsWith(pre + "/" + name, name)
  {
    var r := pre + "/" + name;
    assert r[|pre|..] == "/" + name;
    assert r[|pre| + 1..] == name;
  }

  /** An absolute header file name takes the place of the temporary directory. */
  lemma AbsoluteNameReplacesDir(dir: string, name: string)
    requires IsAbsolute(name)
    ensures JoinPath(dir, name) == JoinPath("", name)
    ensures IsAbsolute(JoinPath(dir, name))
  {
  }

  /**
   * No `filename=` starts in `[lo, n)` when one starts at `n` and none lies
   * wholly inside `h[lo..n]`: one starting just before `n` would need its `=`
   * inside the key at `n`, which has its only `=` last.
   */
  lemma NoKeyBefore(h: string, lo: nat, n: nat)
    requires lo <= n && HasAt(h, n, FilenameKey)
    requires !Contains(h[lo..n], FilenameKey)
    ensures forall q :: lo <= q < n ==> !HasAt(h, q, FilenameKey)
  {
    forall q | lo <= q < n
      ensures !HasAt(h, q, FilenameKey)
    {
      if q + |FilenameKey| <= n {
        var sub := h[lo..n];
        assert forall k :: q <= k < q + |FilenameKey| ==> h[k] == sub[k - lo];
        assert h[q..q + |FilenameKey|] == sub[q - lo..q - lo + |FilenameKey|];
        assert !HasAt(sub, q - lo, FilenameKey);
      } else {
        assert h[q + 8] == h[n..n + |FilenameKey|][q + 8 - n];
        assert FilenameKey[q + 8 - n] != '=';
      }
    }
  }

  /** No `filename=` starts at or after `from` when the rest of the text contains none. */
  lemma NoKeyIn(h: string, from: nat)
    requires from <= |h| && !Contains(h[from..], FilenameKey)
    ensures forall q :: from <= q <= |h| ==> !HasAt(h, q, FilenameKey)
  {
    forall q | from <= q <= |h|
      ensures !HasAt(h, q, FilenameKey)
    {
      if q + |FilenameKey| <= |h| {
        assert h[q..q + |FilenameKey|] == h[from..][q - from..q - from + |FilenameKey|];
        assert !HasAt(h[from..], q - from, FilenameKey);
      }
    }
  }

  /** The first `filename=` of `pre + "filename=" + tail` is the one after `pre` when `pre` has none. */
  lemma FirstKeyAfter(pre: string, tail: string)
    requires !Contains(pre, FilenameKey)
    ensures IndexOf(pre + FilenameKey + tail, FilenameKey, 0) == Some(|pre|)
  {
    var h := pre + FilenameKey + tail;
    var n := |pre|;
    assert h[0..n] == pre;
    assert h[n..n + |FilenameKey|] == FilenameKey;
    NoKeyBefore(h, 0, n);
    assert HasAt(h, n, FilenameKey);
  }

  /**
   * A header whose first `filename=` follows `pre`, with no further
   * `filename=` after it, yields the rest of the header, stripped of quotes.
   */
  lemma {:induction false} HeaderNameAfterKey(pre: string, value: string)
    requires !Contains(pre, FilenameKey) && !Contains(value, FilenameKey)
    ensures HeaderName(pre + FilenameKey + value) == Some(Strip(value, '"'))
  {
    var h := pre + FilenameKey + value;
    var n := |pre|;
    FirstKeyAfter(pre, value);
    var from := n + |FilenameKey|;
    assert h[from..] == value;
    NoKeyIn(h, from);
    assert IndexOf(h, FilenameKey, from) == None;
  }

  /** `split('filename=')[1]` ends where a second `filename=` begins: the text after it is ignored. */
  lemma {:induction false} HeaderNameStopsAtSecondKey(pre: string, value: string, rest: string)
    requires !Contains(pre, FilenameKey) && !Contains(value, FilenameKey)
    ensures HeaderName(pre + FilenameKey + value + FilenameKey + rest) == Some(Strip(value, '"'))
  {
    var h := pre + FilenameKey + value + FilenameKey + rest;
    var n := |pre|;
    assert h == pre + FilenameKey + (value + FilenameKey + rest);
    FirstKeyAfter(pre, value + FilenameKey + rest);
    var from := n + |FilenameKey|;
    var m := from + |value|;
    assert h[from..m] == value;
    assert h[m..m + |FilenameKey|] == FilenameKey;
    NoKeyBefore(h, from, m);
    assert HasAt(h, m, FilenameKey);
    assert IndexOf(h, FilenameKey, from) == Some(m);
  }

  /** Stripping quotes from a quoted text gives the text back when it has no quote at either end. */
  lemma {:induction false} StripQuoted(name: string)
    requires name == [] || (name[0] != '"' && name[|name| - 1] != '"')
    ensures Strip("\"" + name + "\"", '"') == name
  {
    var s := "\"" + name + "\"";
    if name == [] {
      assert LeadingCount(s[1..], '"') == 1 + LeadingCount(s[2..], '"');
      assert LeadingCount(s, '"') == 2;
    } else {
      assert s[1..][0] == name[0];
      assert LeadingCount(s, '"') == 1;
      var rest := s[1..];
      assert rest == name + "\"";
      assert rest[..|rest| - 1] == name;
      assert TrailingStart(rest, '"') == TrailingStart(name, '"');
      assert TrailingStart(name, '"') == |name|;
      assert rest[..|name|] == name;
    }
  }

  /** Quoting a text adds no `filename=`, since the key holds no quote. */
  lemma QuotedKeyFree(name: string)
    requires !Contains(name, FilenameKey)
    ensures !Contains("\"" + name + "\"", FilenameKey)
  {
    var s := "\"" + name + "\"";
    forall i | 0 <= i <= |s|
      ensures !HasAt(s, i, FilenameKey)
    {
      if i + |FilenameKey| < |s| && 0 < i {
        assert s[i..i + |FilenameKey|] == name[i - 1..i - 1 + |FilenameKey|];
        assert !HasAt(name, i - 1, FilenameKey);
      } else if i + |FilenameKey| == |s| {
        assert s[i + 8] == '"';
      } else if i == 0 && |FilenameKey| <= |s| {
        assert s[0] == '"';
      }
    }
  }

  /**
   * The usual header `attachment; filename="report.csv"` gives back the quoted
   * name: formatting a name into the header and reading it back is the identity.
   */
  lemma {:induction false} QuotedHeaderRoundTrip(pre: string, name: string)
    requires !Contains(pre, FilenameKey) && !Contains(name, FilenameKey)
    requires name == [] || (name[0] != '"' && name[|name| - 1] != '"')
    ensures HeaderName(pre + FilenameKey + "\"" + name + "\"") == Some(name)
  {
    QuotedKeyFree(name);
    assert pre + FilenameKey + "\"" + name + "\"" == pre + FilenameKey + ("\"" + name + "\"");
    HeaderNameAfterKey(pre, "\"" + name + "\"");
    StripQuoted(name);
  }

  /** The last path segment of a URL, with any query cut off, is the name the URL yields. */
  lemma {:induction false} UrlNameOfLastSegment(base: string, name: string, query: string)
    requires name != [] && '/' !in name && '?' !in name && '/' !in query
    ensures UrlName(base + "/" + name) == name
    ensures UrlName(base + "/" + name + "?" + query) == name
  {
    SegmentName(base, name, []);
    SegmentName(base, name, "?" + query);
    assert base + "/" + name + "?" + query == base + "/" + name + ("?" + query);
    assert base + "/" + name == base + "/" + name + [];
  }

  /** The segment after the last `/`, cut at its first `?`. */
  lemma {:induction false} SegmentName(base: string, name: string, tail: string)
    requires name != [] && '/' !in name && '?' !in name && '/' !in tail
    requires tail == [] || tail[0] == '?'
    ensures UrlName(base + "/" + name + tail) == name
  {
    var url := base + "/" + name + tail;
    var p := |base| + 1;
    assert url[p - 1] == '/';
    assert forall i :: p <= i < |url| ==> url[i] != '/' by {
      forall i | p <= i < |url|
        ensures url[i] != '/'
      {
        if i < p + |name| {
          assert url[i] == name[i - p];
        } else {
          assert url[i] == tail[i - p - |name|];
        }
      }
    }
    assert AfterLast(url, '/') == p;
    var seg := url[p..];
    assert seg == name + tail;
    assert FirstIndex(seg, '?') == |name| by {
      forall i | 0 <= i < |name|
        ensures seg[i] != '?'
      {
        assert seg[i] == name[i];
      }
      if tail != [] {
        assert seg[|name|] == '?';
      }
    }
    assert seg[..|name|] == name;
  }

  /**
   * An empty last segment, or one that starts with `?`, yields the default
   * name: `split('?')[0]` is empty there and `or` falls back.
   */
  lemma {:induction false} EmptySegmentDefaultName(base: string, tail: string)
    requires '/' !in tail && (tail == [] || tail[0] == '?')
    ensures UrlName(base + "/" + tail) == DefaultName
  {
    var url := base + "/" + tail;
    var p := |base| + 1;
    assert url[p - 1] == '/';
    forall i | p <= i < |url|
      ensures url[i] != '/'
    {
      assert url[i] == tail[i - p];
    }
    assert AfterLast(url, '/') == p;
    assert url[p..] == tail;
  }

  /** A URL that ends in `/` yields the default name. */
  lemma {:induction false} TrailingSlashDefaultName(base: string)
    ensures UrlName(base + "/") == DefaultName
  {
    EmptySegmentDefaultName(base, []);
    assert base + "/" + [] == base + "/";
  }
}

=== FILE: extraction.dfy ===
/**
 * The extraction policy of quiz_solver.py: where to submit, and which data file
 * a question refers to. Each regular expression is modelled as a predicate
 * `MatchAt(p, s, i)` ("a match of pattern p starts at position i") together
 * with the group it captures; `re.search` is the first start position at which
 * `MatchAt` holds.
 */
module Extraction {
  import opened Wrappers
  import opened Text

  /** The four patterns, in the order the program tries them. */
  datatype Pattern =
    | SubmitUrl   // https?://[^\s<>"]+/submit[^\s<>"]*
    | PostAnswer  // Post your answer to ([https?://[^\s]+)
    | HrefFile    // href=["'"]([^"'>]+\.(?:pdf|csv|xlsx?|json|txt))["'"]   ignoring case
    | BareFile    // https?://[^\s<>"]+\.(?:pdf|csv|xlsx?|json|txt)         ignoring case

  /** The character classes the patterns repeat. */
  datatype CharClass =
    | UrlChar       // [^\s<>"]
    | HrefChar      // [^"'>]
    | FallbackChar  // [https?://[^\s]: one class, whose members are h t p s ? : / [ ^ and whitespace

  predicate InClass(k: CharClass, c: char) {
    match k
    case UrlChar => !IsSpace(c) && c != '<' && c != '>' && c != '"'
    case HrefChar => c != '"' && c != '\'' && c != '>'
    case FallbackChar => IsSpace(c) || c in "htps?:/[^"
  }

  /** The quote characters `["'"]` accepts around an href value. */
  predicate IsQuote(c: char) {
    c == '"' || c == '\''
  }

  const PostPrefix: string := "Post your answer to "
  const SubmitMarker: string := "/submit"

  /** The file extensions, in the order the alternation tries them. */
  const Extensions: seq<string> := ["pdf", "csv", "xlsx", "xls", "json", "txt"]

  /** The end of the maximal run of class-`k` characters that starts at `j`. */
  function RunEnd(s: string, j: nat, k: CharClass): (e: nat)
    requires j <= |s|
    ensures j <= e <= |s|
    ensures forall m :: j <= m < e ==> InClass(k, s[m])
    ensures e == |s| || !InClass(k, s[e])
    decreases |s| - j
  {
    if j == |s| || !InClass(k, s[j]) then j else RunEnd(s, j + 1, k)
  }

  /** A maximal run is determined by its start: any end with the run's two properties is `RunEnd`. */
  lemma RunEndUnique(s: string, j: nat, k: CharClass, e: nat)
    requires j <= e <= |s|
    requires forall m :: j <= m < e ==> InClass(k, s[m])
    requires e == |s| || !InClass(k, s[e])
    ensures RunEnd(s, j, k) == e
  {
  }

  /** Length of a case-sensitive `https?://` at `i`, or 0; `s?` is greedy. */
  function SchemeLen(s: string, i: nat): nat {
    if HasAt(s, i, "https://") then 8 else if HasAt(s, i, "http://") then 7 else 0
  }

  /** Length of `https?://` at `i` ignoring case, or 0. */
  function SchemeFoldLen(s: string, i: nat): nat {
    if HasFoldAt(s, i, "https://") then 8 else if HasFoldAt(s, i, "http://") then 7 else 0
  }

  /**
   * Length of the extension the alternation `pdf|csv|xlsx?|json|txt` matches
   * at `m` ignoring case, or 0; `xlsx` is preferred to `xls`.
   */
  function ExtLenAt(s: string, m: nat): (n: nat)
    ensures n == 0 || m + n <= |s|
  {
    if HasFoldAt(s, m, "pdf") || HasFoldAt(s, m, "csv") then 3
    else if HasFoldAt(s, m, "xlsx") then 4
    else if HasFoldAt(s, m, "xls") then 3
    else if HasFoldAt(s, m, "json") then 4
    else if HasFoldAt(s, m, "txt") then 3
    else 0
  }

  /** `s[j..e]` ends in `.` plus an extension, with at least one character before the dot. */
  predicate EndsWithExtension(s: string, j: nat, e: nat)
    requires j <= e <= |s|
  {
    exists x | 0 <= x < |Extensions| ::
      && e - j >= |Extensions[x]| + 2
      && s[e - |Extensions[x]| - 1] == '.'
      && HasFoldAt(s, e - |Extensions[x]|, Extensions[x])
  }

  /** A dot in `[lo, e)` that an extension follows. */
  predicate ExtDot(s: string, d: nat) {
    d < |s| && s[d] == '.' && ExtLenAt(s, d + 1) > 0
  }

  /** The last position `d` in `[lo, hi)` with `ExtDot(s, d)`: where greedy backtracking stops. */
  function LastExtDot(s: string, lo: nat, hi: nat): (r: Option<nat>)
    requires lo <= hi <= |s|
    ensures r.Some? ==> lo <= r.value < hi && ExtDot(s, r.value)
    ensures r.Some? ==> forall d :: r.value < d < hi ==> !ExtDot(s, d)
    ensures r.None? ==> forall d :: lo <= d < hi ==> !ExtDot(s, d)
    decreases hi - lo
  {
    if hi == lo then None
    else if ExtDot(s, hi - 1) then Some(hi - 1)
    else LastExtDot(s, lo, hi - 1)
  }

  /** A match of `https?://[^\s<>"]+/submit[^\s<>"]*` starts at `i`. */
  predicate SubmitMatchAt(s: string, i: nat) {
    && SchemeLen(s, i) > 0
    && var j := i + SchemeLen(s, i);
       var e := RunEnd(s, j, UrlChar);
       exists k | j + 1 <= k <= e :: HasAt(s, k, SubmitMarker) && k + 7 <= e
  }

  /** A match of `Post your answer to ([https?://[^\s]+)` starts at `i`. */
  predicate PostMatchAt(s: string, i: nat) {
    && HasAt(s, i, PostPrefix)
    && i + |PostPrefix| < |s|
    && InClass(FallbackChar, s[i + |PostPrefix|])
  }

  /** A match of the quoted href pattern starts at `i`. */
  predicate HrefMatchAt(s: string, i: nat) {
    && HasFoldAt(s, i, "href=")
    && i + 6 <= |s|
    && IsQuote(s[i + 5])
    && var e := RunEnd(s, i + 6, HrefChar);
       e < |s| && IsQuote(s[e]) && EndsWithExtension(s, i + 6, e)
  }

  /** A match of the bare file URL pattern starts at `i`. */
  predicate BareMatchAt(s: string, i: nat) {
    && SchemeFoldLen(s, i) > 0
    && var j := i + SchemeFoldLen(s, i);
       var e := RunEnd(s, j, UrlChar);
       j < e && LastExtDot(s, j + 1, e).Some?
  }

  /** Whether a match of `p` starts at position `i` of `s`. */
  predicate MatchAt(p: Pattern, s: string, i: nat) {
    match p
    case SubmitUrl => SubmitMatchAt(s, i)
    case PostAnswer => PostMatchAt(s, i)
    case HrefFile => HrefMatchAt(s, i)
    case BareFile => BareMatchAt(s, i)
  }

  /** A character that folds onto a lower-case ASCII letter is a URL character. */
  lemma FoldLetterIsUrlChar(c: char, p: char)
    requires 'a' <= p <= 'z' && FoldEq(c, p)
    ensures InClass(UrlChar, c)
  {
  }

  /** A positive `ExtLenAt` is the length of one of the listed extensions found there. */
  lemma ExtLenNamesExtension(s: string, m: nat)
    requires ExtLenAt(s, m) > 0
    ensures exists x | 0 <= x < |Extensions| ::
              |Extensions[x]| == ExtLenAt(s, m) && HasFoldAt(s, m, Extensions[x])
  {
    var x := if HasFoldAt(s, m, "pdf") then 0
             else if HasFoldAt(s, m, "csv") then 1
             else if HasFoldAt(s, m, "xlsx") then 2
             else if HasFoldAt(s, m, "xls") then 3
             else if HasFoldAt(s, m, "json") then 4
             else 5;
    assert |Extensions[x]| == ExtLenAt(s, m) && HasFoldAt(s, m, Extensions[x]);
  }

  /** The listed extensions are spelled with lower-case ASCII letters. */
  lemma ExtensionsAreLetters()
    ensures forall x, m :: 0 <= x < |Extensions| && 0 <= m < |Extensions[x]| ==> 'a' <= Extensions[x][m] <= 'z'
  {
  }

  /** The characters of a matched extension are URL characters. */
  lemma ExtensionIsUrlChars(s: string, m: nat)
    requires ExtLenAt(s, m) > 0
    ensures forall t :: m <= t < m + ExtLenAt(s, m) ==> InClass(UrlChar, s[t])
  {
    ExtLenNamesExtension(s, m);
    var x :| 0 <= x < |Extensions| && |Extensions[x]| == ExtLenAt(s, m) && HasFoldAt(s, m, Extensions[x]);
    HasFoldAtChars(s, m, Extensions[x]);
    ExtensionsAreLetters();
    forall t | m <= t < m + ExtLenAt(s, m)
      ensures InClass(UrlChar, s[t])
    {
      FoldLetterIsUrlChar(s[t], Extensions[x][t - m]);
    }
  }

  /** A maximal run reaches past any stretch of class characters that starts inside it. */
  lemma RunCovers(s: string, j: nat, k: CharClass, lo: nat, hi: nat)
    requires j <= |s| && j <= lo <= RunEnd(s, j, k) && hi <= |s|
    requires forall t :: lo <= t < hi ==> InClass(k, s[t])
    ensures hi <= RunEnd(s, j, k)
  {
  }

  /** The extension after a dot of the run consists of URL characters, so it stays inside the run. */
  lemma ExtensionInsideRun(s: string, j: nat, e: nat, d: nat)
    requires j <= e <= |s| && e == RunEnd(s, j, UrlChar)
    requires j <= d < e && ExtDot(s, d)
    ensures d + 1 + ExtLenAt(s, d + 1) <= e
  {
    ExtensionIsUrlChars(s, d + 1);
    RunCovers(s, j, UrlChar, d + 1, d + 1 + ExtLenAt(s, d + 1));
  }

  /** Where a bare file match cuts the text: after the extension that follows the dot at `dot`. */
  datatype Cut = Cut(dot: nat, end: nat)

  /**
   * How a bare file match whose URL run is `[j, e)` ends: greedy
   * `[^\s<>"]+` backtracks from the end of the run to the last dot that an
   * extension follows, and the extension ends the match, still inside the run.
   */
  function BareCut(s: string, j: nat, e: nat): (c: Cut)
    requires j < e <= |s| && e == RunEnd(s, j, UrlChar) && LastExtDot(s, j + 1, e).Some?
    ensures j < c.dot < c.end <= e
    ensures ExtDot(s, c.dot) && c.end == c.dot + 1 + ExtLenAt(s, c.dot + 1)
    ensures forall d :: c.dot < d < e ==> !ExtDot(s, d)
  {
    var d := LastExtDot(s, j + 1, e).value;
    ExtensionInsideRun(s, j, e, d);
    Cut(d, d + 1 + ExtLenAt(s, d + 1))
  }

  /** The whole URL a `/submit` match at `i` yields: the match runs to the end of its URL run. */
  function SubmitGroup(s: string, i: nat): (g: string)
    requires SubmitMatchAt(s, i)
    ensures g != []
  {
    s[i..RunEnd(s, i + SchemeLen(s, i), UrlChar)]
  }

  /** Group 1 of the fallback: the run of its character class after the phrase. */
  function PostGroup(s: string, i: nat): (g: string)
    requires PostMatchAt(s, i)
    ensures g != []
  {
    s[i + |PostPrefix|..RunEnd(s, i + |PostPrefix|, FallbackChar)]
  }

  /** Group 1 of the href pattern: the quoted value. */
  function HrefGroup(s: string, i: nat): (g: string)
    requires HrefMatchAt(s, i)
    ensures g != []
  {
    var e := RunEnd(s, i + 6, HrefChar);
    assert EndsWithExtension(s, i + 6, e);
    s[i + 6..e]
  }

  /** The bare file URL: from the scheme to the end of the extension `BareCut` picks. */
  function BareGroup(s: string, i: nat): (g: string)
    requires BareMatchAt(s, i)
    ensures g != []
  {
    var j := i + SchemeFoldLen(s, i);
    var e := RunEnd(s, j, UrlChar);
    assert j < e && LastExtDot(s, j + 1, e).Some?;
    s[i..BareCut(s, j, e).end]
  }

  /** The text a match of `p` at `i` yields: group 1 for the two patterns with a group, else group 0. */
  function Group(p: Pattern, s: string, i: nat): (g: string)
    requires MatchAt(p, s, i)
    ensures g != []
  {
    match p
    case SubmitUrl => SubmitGroup(s, i)
    case PostAnswer => PostGroup(s, i)
    case HrefFile => HrefGroup(s, i)
    case BareFile => BareGroup(s, i)
  }

  /** `i` is where `re.search` reports the match of `p`: the leftmost start. */
  predicate IsFirstMatch(p: Pattern, s: string, i: nat) {
    i < |s| && MatchAt(p, s, i) && forall q :: 0 <= q < i ==> !MatchAt(p, s, q)
  }

  predicate NoMatch(p: Pattern, s: string) {
    forall q :: 0 <= q < |s| ==> !MatchAt(p, s, q)
  }

  /** For every start position, whether a match of `p` starts there. */
  function MatchTable(p: Pattern, s: string): (b: seq<bool>)
    ensures |b| == |s|
    ensures forall q :: 0 <= q < |s| ==> (b[q] <==> MatchAt(p, s, q))
  {
    seq(|s|, q requires 0 <= q < |s| => MatchAt(p, s, q))
  }

  /** `re.search(p, s)`, scanning start positions left to right, then taking the group the program returns. */
  function Search(p: Pattern, s: string): (r: Option<string>)
    ensures r.None? <==> NoMatch(p, s)
    ensures r.Some? ==> exists i :: IsFirstMatch(p, s, i) && r.value == Group(p, s, i)
  {
    var b := MatchTable(p, s);
    match FirstTrue(b, 0)
    case None => None
    case Some(i) =>
      assert IsFirstMatch(p, s, i);
      Some(Group(p, s, i))
  }

  /**
   * `extract_submit_url`: the `/submit` pattern over the whole text first, the
   * "Post your answer to" pattern only when the first matches nowhere.
   */
  function ExtractSubmitUrl(s: string): (r: Option<string>)
    ensures r.None? <==> NoMatch(SubmitUrl, s) && NoMatch(PostAnswer, s)
    ensures !NoMatch(SubmitUrl, s) ==>
              exists i :: IsFirstMatch(SubmitUrl, s, i) && r == Some(Group(SubmitUrl, s, i))
    ensures NoMatch(SubmitUrl, s) && !NoMatch(PostAnswer, s) ==>
              exists i :: IsFirstMatch(PostAnswer, s, i) && r == Some(Group(PostAnswer, s, i))
    ensures r.Some? ==> r.value != []
  {
    match Search(SubmitUrl, s)
    case Some(u) => Some(u)
    case None => Search(PostAnswer, s)
  }

  /**
   * `extract_file_url`: a quoted href value ending in an extension anywhere in
   * the text wins over any bare URL, ignoring case throughout.
   */
  function ExtractFileUrl(s: string): (r: Option<string>)
    ensures r.None? <==> NoMatch(HrefFile, s) && NoMatch(BareFile, s)
    ensures !NoMatch(HrefFile, s) ==>
              exists i :: IsFirstMatch(HrefFile, s, i) && r == Some(Group(HrefFile, s, i))
    ensures NoMatch(HrefFile, s) && !NoMatch(BareFile, s) ==>
              exists i :: IsFirstMatch(BareFile, s, i) && r == Some(Group(BareFile, s, i))
    ensures r.Some? ==> r.value != []
  {
    match Search(HrefFile, s)
    case Some(u) => Some(u)
    case None => Search(BareFile, s)
  }
}

=== FILE: extraction_facts.dfy ===
/** What the extraction policy guarantees for whole classes of page texts. */
module ExtractionFacts {
  import opened Wrappers
  import opened Text
  import opened Extraction

  /** Every character of a scheme `https?://` is a URL character. */
  lemma SchemeIsUrlChars(s: string, q: nat)
    requires SchemeLen(s, q) > 0
    ensures q + SchemeLen(s, q) <= |s|
    ensures forall t :: q <= t < q + SchemeLen(s, q) ==> InClass(UrlChar, s[t])
  {
    var lit := if HasAt(s, q, "https://") then "https://" else "http://";
    assert s[q..q + |lit|] == lit;
    assert forall m :: 0 <= m < |lit| ==> lit[m] in "htps:/";
    forall t | q <= t < q + |lit|
      ensures InClass(UrlChar, s[t])
    {
      assert s[t] == lit[t - q];
    }
  }

  /** The scan stops exactly at the leftmost match. */
  lemma FirstMatchIsFound(p: Pattern, s: string, i: nat)
    requires IsFirstMatch(p, s, i)
    ensures Search(p, s) == Some(Group(p, s, i))
  {
  }

  /** A match of the `/submit` pattern needs `/submit` somewhere in the text. */
  lemma SubmitMatchNeedsSubmit(s: string, q: nat)
    requires SubmitMatchAt(s, q)
    ensures Contains(s, SubmitMarker)
  {
    var j := q + SchemeLen(s, q);
    var e := RunEnd(s, j, UrlChar);
    var k :| j + 1 <= k <= e && HasAt(s, k, SubmitMarker) && k + 7 <= e;
    assert 0 <= k <= |s| && HasAt(s, k, SubmitMarker);
  }

  /** A URL-shaped token with `/submit` one or more characters after its `://`. */
  predicate IsSubmitToken(tok: string) {
    && SchemeLen(tok, 0) > 0
    && (forall m :: 0 <= m < |tok| ==> InClass(UrlChar, tok[m]))
    && exists k | SchemeLen(tok, 0) + 1 <= k <= |tok| :: HasAt(tok, k, SubmitMarker)
  }

  /** A literal inside a slice is seen at the shifted position of the whole string. */
  lemma HasAtSlice(s: string, i: nat, tok: string, k: nat, lit: string)
    requires i + |tok| <= |s| && s[i..i + |tok|] == tok
    requires HasAt(tok, k, lit)
    ensures HasAt(s, i + k, lit)
  {
    forall t | 0 <= t < |lit|
      ensures s[i + k + t] == lit[t]
    {
      assert s[i + k + t] == s[i..i + |tok|][k + t] == tok[k + t];
    }
  }

  /** The characters of a slice are those of the string it was cut from. */
  lemma SliceClass(s: string, tok: string, i: nat, n: nat)
    requires i + |tok| <= |s| && s[i..i + |tok|] == tok && n <= |tok|
    requires forall m :: 0 <= m < |tok| ==> InClass(UrlChar, tok[m])
    ensures forall m :: i + n <= m < i + |tok| ==> InClass(UrlChar, s[m])
  {
    forall m | i + n <= m < i + |tok|
      ensures InClass(UrlChar, s[m])
    {
      assert s[m] == tok[m - i];
    }
  }

  /** A scheme, a run end and a `/submit` inside the run make a match. */
  lemma SubmitMatchFromParts(s: string, i: nat, n: nat, k: nat, e: nat)
    requires SchemeLen(s, i) == n > 0
    requires RunEnd(s, i + n, UrlChar) == e
    requires HasAt(s, k, SubmitMarker) && i + n + 1 <= k && k + 7 <= e
    ensures SubmitMatchAt(s, i)
  {
  }

  /** The scheme of a slice is the scheme of the whole string at the slice's start. */
  lemma SchemeOfSlice(s: string, i: nat, tok: string)
    requires i + |tok| <= |s| && s[i..i + |tok|] == tok
    requires SchemeLen(tok, 0) > 0 && |tok| >= 8
    ensures SchemeLen(s, i) == SchemeLen(tok, 0)
  {
    assert s[i..i + 8] == tok[..8];
    assert s[i..i + 7] == tok[..7];
  }

  /** A `/submit` token standing at `i` and followed by a separator is a match spanning the token. */
  lemma TokenMatchesAt(s: string, i: nat, tok: string)
    requires IsSubmitToken(tok)
    requires i + |tok| <= |s| && s[i..i + |tok|] == tok
    requires i + |tok| == |s| || !InClass(UrlChar, s[i + |tok|])
    ensures SubmitMatchAt(s, i)
    ensures RunEnd(s, i + SchemeLen(s, i), UrlChar) == i + |tok|
  {
    var n := SchemeLen(tok, 0);
    var k: nat :| n + 1 <= k <= |tok| && HasAt(tok, k, SubmitMarker);
    var e := i + |tok|;
    assert SchemeLen(s, i) == n by {
      SchemeOfSlice(s, i, tok);
    }
    assert RunEnd(s, i + n, UrlChar) == e by {
      SliceClass(s, tok, i, n);
      RunEndUnique(s, i + n, UrlChar, e);
    }
    assert HasAt(s, i + k, SubmitMarker) && i + k + 7 <= e by {
      HasAtSlice(s, i, tok, k, SubmitMarker);
    }
    SubmitMatchFromParts(s, i, n, i + k, e);
  }

  /** No match starts inside a prefix that ends in a separator and never mentions `/submit`. */
  lemma NoMatchInPrefix(pre: string, rest: string)
    requires !Contains(pre, SubmitMarker)
    requires pre == [] || !InClass(UrlChar, pre[|pre| - 1])
    ensures forall q :: 0 <= q < |pre| ==> !SubmitMatchAt(pre + rest, q)
  {
    var s := pre + rest;
    var i := |pre|;
    forall q | 0 <= q < i
      ensures !SubmitMatchAt(s, q)
    {
      if SubmitMatchAt(s, q) {
        var m := SchemeLen(s, q);
        SchemeIsUrlChars(s, q);
        assert s[i - 1] == pre[i - 1];
        assert q + m <= i - 1;
        var j := q + m;
        var e' := RunEnd(s, j, UrlChar);
        assert e' <= i - 1;
        var k' :| j + 1 <= k' <= e' && HasAt(s, k', SubmitMarker) && k' + 7 <= e';
        assert s[k'..k' + 7] == pre[k'..k' + 7];
        assert HasAt(pre, k', SubmitMarker);
        assert false;
      }
    }
  }

  /** The first `/submit` match is what `extract_submit_url` returns. */
  lemma FirstSubmitIsExtracted(s: string, i: nat)
    requires IsFirstMatch(SubmitUrl, s, i)
    ensures ExtractSubmitUrl(s) == Some(Group(SubmitUrl, s, i))
  {
    FirstMatchIsFound(SubmitUrl, s, i);
  }

  /**
   * A `/submit` URL standing alone in the text is returned whole, not cut
   * short, provided no earlier text mentions `/submit`.
   */
  lemma FullSubmitTokenReturned(pre: string, tok: string, post: string)
    requires IsSubmitToken(tok)
    requires !Contains(pre, SubmitMarker)
    requires pre == [] || !InClass(UrlChar, pre[|pre| - 1])
    requires post == [] || !InClass(UrlChar, post[0])
    ensures ExtractSubmitUrl(pre + tok + post) == Some(tok)
  {
    var s := pre + tok + post;
    var i := |pre|;
    assert SubmitMatchAt(s, i) && Group(SubmitUrl, s, i) == tok by {
      assert s[i..i + |tok|] == tok;
      assert i + |tok| < |s| ==> s[i + |tok|] == post[0];
      TokenMatchesAt(s, i, tok);
    }
    assert IsFirstMatch(SubmitUrl, s, i) by {
      assert s == pre + (tok + post);
      NoMatchInPrefix(pre, tok + post);
    }
    FirstSubmitIsExtracted(s, i);
  }

  /**
   * A text with neither `/submit` nor the phrase "Post your answer to " has no
   * submission URL.
   */
  lemma NoSubmitPhraseNoUrl(s: string)
    requires !Contains(s, SubmitMarker)
    requires !Contains(s, PostPrefix)
    ensures ExtractSubmitUrl(s) == None
  {
    forall q | 0 <= q < |s|
      ensures !SubmitMatchAt(s, q) && !PostMatchAt(s, q)
    {
      if SubmitMatchAt(s, q) {
        SubmitMatchNeedsSubmit(s, q);
      }
    }
  }

  /** Every character the fallback captures belongs to its character class. */
  lemma FallbackCapturesClassChars(s: string, i: nat)
    requires PostMatchAt(s, i)
    ensures forall m :: 0 <= m < |Group(PostAnswer, s, i)| ==> InClass(FallbackChar, Group(PostAnswer, s, i)[m])
  {
    var j := i + |PostPrefix|;
    var g := Group(PostAnswer, s, i);
    assert forall m :: 0 <= m < |g| ==> g[m] == s[j + m];
  }

  /**
   * Because the fallback's group is a character class, "Post your answer to"
   * followed by an https URL whose host starts with a letter outside the class
   * yields only `https://`.
   */
  lemma FallbackKeepsOnlyScheme(host: string)
    requires host != [] && !InClass(FallbackChar, host[0])
    requires !Contains(PostPrefix + "https://" + host, SubmitMarker)
    ensures ExtractSubmitUrl(PostPrefix + "https://" + host) == Some("https://")
  {
    var s := PostPrefix + "https://" + host;
    forall q | 0 <= q < |s|
      ensures !SubmitMatchAt(s, q)
    {
      if SubmitMatchAt(s, q) {
        SubmitMatchNeedsSubmit(s, q);
      }
    }
    assert s[..20] == PostPrefix;
    assert s[20..28] == "https://";
    assert s[28] == host[0];
    RunEndUnique(s, 20, FallbackChar, 28);
    assert PostMatchAt(s, 0);
    FirstMatchIsFound(PostAnswer, s, 0);
  }
}

=== FILE: inbound.dfy ===
/**
 * `handle_quiz`, the POST /quiz endpoint: check the request, authenticate
 * it against the configured email and secret, and start the chain in the
 * background. The request body is a JSON value; the `in` test and the
 * indexing behave as Python's do on whatever value the body decodes to.
 */
module Inbound {
  import opened Wrappers
  import opened Text
  import opened Config

  /** A decoded JSON value; numbers are kept as their text. */
  datatype JValue =
    | JNull
    | JBool(b: bool)
    | JNum(repr: string)
    | JStr(s: string)
    | JArray(items: seq<JValue>)
    | JObject(fields: map<string, JValue>)

  /** What Flask hands the handler: whether the content type is JSON, and the decoded body (`None`: it does not parse). */
  datatype Request = Request(isJson: bool, body: Option<JValue>)

  /** The HTTP answer: an error with its status and message, or the 200 acknowledgement echoing the URL. */
  datatype Reply = Error(status: nat, message: string) | Received(url: JValue)

  /** The background chain the handler starts, with its arguments. */
  datatype Launch = Launch(url: JValue, email: string, secret: string)

  datatype Decision = Decision(reply: Reply, launch: Option<Launch>)

  /** The outcome of the loop over the required fields. */
  datatype FieldCheck = AllPresent | Missing(field: string) | Raised

  const RequiredFields: seq<string> := ["email", "secret", "url"]
  const NotJson: string := "Request must be JSON"
  const MissingPrefix: string := "Missing required field: "
  const InvalidEmail: string := "Invalid email"
  const InvalidSecret: string := "Invalid secret"
  const InternalError: string := "Internal server error"

  /** Python's `field in data`: a key of an object, an element of a list, a substring of a string; `None` where it raises. */
  function Member(data: JValue, field: string): (r: Option<bool>)
    ensures r.None? <==> data.JNull? || data.JBool? || data.JNum?
  {
    match data
    case JObject(m) => Some(field in m)
    case JArray(items) => Some(JStr(field) in items)
    case JStr(s) => Some(Contains(s, field))
    case _ => None
  }

  /** `for field in required_fields: if field not in data: ...`, stopping at the first missing field. */
  function CheckFields(data: JValue, fields: seq<string>): (r: FieldCheck)
    ensures r == AllPresent <==> forall k :: 0 <= k < |fields| ==> Member(data, fields[k]) == Some(true)
    ensures r.Missing? ==> exists k :: 0 <= k < |fields| && fields[k] == r.field
                                       && Member(data, fields[k]) == Some(false)
                                       && forall j :: 0 <= j < k ==> Member(data, fields[j]) == Some(true)
    decreases |fields|
  {
    if fields == [] then AllPresent
    else match Member(data, fields[0])
      case None => Raised
      case Some(false) => Missing(fields[0])
      case Some(true) =>
        var rest := CheckFields(data, fields[1..]);
        assert forall k :: 1 <= k < |fields| ==> fields[k] == fields[1..][k - 1];
        rest
  }

  function Reject(status: nat, message: string): Decision {
    Decision(Error(status, message), None)
  }

  /**
   * The body passes every check: an object with the three fields, whose
   * email and secret are exactly the configured strings.
   */
  predicate Authentic(data: JValue, settings: Settings) {
    && data.JObject?
    && "email" in data.fields && "secret" in data.fields && "url" in data.fields
    && data.fields["email"] == JStr(settings.email)
    && data.fields["secret"] == JStr(settings.secret)
  }

  /**
   * `handle_quiz`. `spawnOk` says whether starting the thread succeeds; any
   * exception inside the handler, including a body that does not parse,
   * becomes a 500.
   */
  function HandleQuiz(req: Request, settings: Settings, spawnOk: bool): (d: Decision)
    ensures d.launch.Some? <==> d.reply.Received?
    ensures d.reply.Received? <==> req.isJson && req.body.Some? && Authentic(req.body.value, settings) && spawnOk
    ensures d.launch.Some? ==>
              && d.launch.value == Launch(req.body.value.fields["url"], settings.email, settings.secret)
              && d.reply.url == req.body.value.fields["url"]
    ensures d.reply.Error? ==> d.reply.status in {400, 403, 500}
    ensures !req.isJson ==> d == Reject(400, NotJson)
    ensures req.isJson && req.body.None? ==> d == Reject(500, InternalError)
    ensures req.isJson && req.body.Some? && Authentic(req.body.value, settings) && !spawnOk ==>
              d == Reject(500, InternalError)
    ensures (req.isJson && req.body.Some? && CheckFields(req.body.value, RequiredFields) == AllPresent
             && !req.body.value.JObject?) ==> d == Reject(500, InternalError)
    ensures (req.isJson && req.body.Some? && CheckFields(req.body.value, RequiredFields).Missing?) ==>
              d == Reject(400, MissingPrefix + CheckFields(req.body.value, RequiredFields).field)
  {
    if !req.isJson then Reject(400, NotJson)
    else match req.body
      case None => Reject(500, InternalError)
      case Some(data) =>
        match CheckFields(data, RequiredFields)
        case Raised => Reject(500, InternalError)
        case Missing(f) => Reject(400, MissingPrefix + f)
        case AllPresent =>
          if !data.JObject? then Reject(500, InternalError)
          else
            var m := data.fields;
            assert "email" in m && "secret" in m && "url" in m by {
              assert Member(data, RequiredFields[0]) == Some(true);
              assert Member(data, RequiredFields[1]) == Some(true);
              assert Member(data, RequiredFields[2]) == Some(true);
            }
            if m["email"] != JStr(settings.email) then Reject(403, InvalidEmail)
            else if m["secret"] != JStr(settings.secret) then Reject(403, InvalidSecret)
            else if !spawnOk then Reject(500, InternalError)
            else Decision(Received(m["url"]), Some(Launch(m["url"], settings.email, settings.secret)))
  }

  /** The loop reports the first field that is absent, when every earlier one is present. */
  lemma {:induction false} FirstAbsentReported(data: JValue, fields: seq<string>, i: nat)
    requires i < |fields| && Member(data, fields[i]) == Some(false)
    requires forall j :: 0 <= j < i ==> Member(data, fields[j]) == Some(true)
    ensures CheckFields(data, fields) == Missing(fields[i])
    decreases i
  {
    if i > 0 {
      assert Member(data, fields[0]) == Some(true);
      FirstAbsentReported(data, fields[1..], i - 1);
    }
  }

  /** The first required field an object lacks is the one the 400 names. */
  lemma {:induction false} FirstMissingFieldNamed(m: map<string, JValue>, settings: Settings, spawnOk: bool, i: nat)
    requires i < |RequiredFields| && RequiredFields[i] !in m
    requires forall j :: 0 <= j < i ==> RequiredFields[j] in m
    ensures HandleQuiz(Request(true, Some(JObject(m))), settings, spawnOk) == Reject(400, MissingPrefix + RequiredFields[i])
  {
    FirstAbsentReported(JObject(m), RequiredFields, i);
  }

  /** The email is checked before the secret: a request wrong on both is refused for its email. */
  lemma WrongEmailReportedFirst(m: map<string, JValue>, settings: Settings, spawnOk: bool)
    requires "email" in m && "secret" in m && "url" in m
    requires m["email"] != JStr(settings.email)
    ensures HandleQuiz(Request(true, Some(JObject(m))), settings, spawnOk) == Reject(403, InvalidEmail)
  {
    assert CheckFields(JObject(m), RequiredFields) == AllPresent;
  }

  /** With the right email, a wrong secret is refused as such. */
  lemma WrongSecretReported(m: map<string, JValue>, settings: Settings, spawnOk: bool)
    requires "email" in m && "secret" in m && "url" in m
    requires m["email"] == JStr(settings.email) && m["secret"] != JStr(settings.secret)
    ensures HandleQuiz(Request(true, Some(JObject(m))), settings, spawnOk) == Reject(403, InvalidSecret)
  {
    assert CheckFields(JObject(m), RequiredFields) == AllPresent;
  }

  /**
   * A JSON string body that mentions all three field names passes the field
   * loop, since `in` on a string tests for a substring, and then raises on
   * `data['email']`: the client gets a 500, not a 400.
   */
  lemma StringBodyIsServerError(s: string, settings: Settings, spawnOk: bool)
    requires Contains(s, "email") && Contains(s, "secret") && Contains(s, "url")
    ensures HandleQuiz(Request(true, Some(JStr(s))), settings, spawnOk) == Reject(500, InternalError)
  {
    assert CheckFields(JStr(s), RequiredFields) == AllPresent;
  }

  /**
   * A JSON list holding the three field names passes the field loop, since
   * `in` on a list tests for an element, and then raises on `data['email']`: a 500.
   */
  lemma ListBodyIsServerError(items: seq<JValue>, settings: Settings, spawnOk: bool)
    requires JStr("email") in items && JStr("secret") in items && JStr("url") in items
    ensures HandleQuiz(Request(true, Some(JArray(items))), settings, spawnOk) == Reject(500, InternalError)
  {
    assert CheckFields(JArray(items), RequiredFields) == AllPresent;
  }

  /** A body that decodes to `null`, a number or a boolean makes `in` raise: a 500. */
  lemma ScalarBodyIsServerError(v: JValue, settings: Settings, spawnOk: bool)
    requires v.JNull? || v.JBool? || v.JNum?
    ensures HandleQuiz(Request(true, Some(v)), settings, spawnOk) == Reject(500, InternalError)
  {
    assert Member(v, RequiredFields[0]).None?;
  }
}

=== FILE: routing.dfy ===
/**
 * The reader `handle_file_task` picks for a downloaded file: a case-sensitive
 * test of the path's suffix, in the order PDF, CSV, Excel, anything else.
 */
module Routing {
  import opened Wrappers
  import opened Text
  import opened Download

  /** Which reader handles a file, and so which context label the reasoning step receives. */
  datatype Route = PdfRoute | CsvRoute | ExcelRoute | TextRoute

  /** The last character of a non-empty string. */
  function Last(s: string): char
    requires s != []
  {
    s[|s| - 1]
  }

  /** A string ending in `suffix` ends in the suffix's last character. */
  lemma SuffixLast(s: string, suffix: string)
    requires suffix != [] && EndsWith(s, suffix)
    ensures s != [] && Last(s) == Last(suffix)
  {
    assert s[|s| - |suffix|..][|suffix| - 1] == s[|s| - 1];
  }

  /** The reader for `path`; the suffixes end in different letters, so at most one family matches. */
  function RouteOf(path: string): (r: Route)
    ensures r == PdfRoute <==> EndsWith(path, ".pdf")
    ensures r == CsvRoute <==> EndsWith(path, ".csv")
    ensures r == ExcelRoute <==> EndsWith(path, ".xlsx") || EndsWith(path, ".xls")
    ensures r == TextRoute <==> (!EndsWith(path, ".pdf") && !EndsWith(path, ".csv")
                                 && !EndsWith(path, ".xlsx") && !EndsWith(path, ".xls"))
  {
    if EndsWith(path, ".pdf") then PdfRoute
    else if EndsWith(path, ".csv") then
      SuffixLast(path, ".csv");
      assert !EndsWith(path, ".pdf");
      CsvRoute
    else if EndsWith(path, ".xlsx") || EndsWith(path, ".xls") then
      if EndsWith(path, ".xlsx") then SuffixLast(path, ".xlsx"); ExcelRoute
      else SuffixLast(path, ".xls"); ExcelRoute
    else TextRoute
  }

  /**
   * The test is case-sensitive: an upper-case `.CSV` file, which the
   * case-insensitive file-link patterns do pick up, is read as plain text.
   */
  lemma {:induction false} UpperCaseSuffixIsText(path: string)
    requires EndsWith(path, ".CSV") || EndsWith(path, ".PDF") || EndsWith(path, ".XLSX") || EndsWith(path, ".XLS")
    ensures RouteOf(path) == TextRoute
  {
    if EndsWith(path, ".CSV") {
      SuffixLast(path, ".CSV");
    } else if EndsWith(path, ".PDF") {
      SuffixLast(path, ".PDF");
    } else if EndsWith(path, ".XLSX") {
      SuffixLast(path, ".XLSX");
    } else {
      SuffixLast(path, ".XLS");
    }
    if EndsWith(path, ".pdf") {
      SuffixLast(path, ".pdf");
    } else if EndsWith(path, ".csv") {
      SuffixLast(path, ".csv");
    } else if EndsWith(path, ".xlsx") {
      SuffixLast(path, ".xlsx");
    } else if EndsWith(path, ".xls") {
      SuffixLast(path, ".xls");
    }
  }

  /**
   * Past a `/`, a path and the name after it end in the same slash-free
   * suffixes: a longer suffix would have to contain the `/`.
   */
  lemma {:induction false} SuffixThroughSlash(path: string, name: string, suffix: string)
    requires EndsWith(path, "/" + name) && '/' !in suffix
    ensures EndsWith(path, suffix) <==> EndsWith(name, suffix)
  {
    var p := |path| - |name| - 1;
    assert path[p..] == "/" + name;
    if |suffix| <= |name| {
      assert path[|path| - |suffix|..] == path[p..][|name| + 1 - |suffix|..];
      assert path[|path| - |suffix|..] == name[|name| - |suffix|..];
    } else if |suffix| <= |path| {
      assert path[p] == '/';
      assert path[|path| - |suffix|..][|suffix| - |name| - 1] == path[p];
    }
  }

  /** A saved file's path routes as its plain name does, wherever the temporary directory is. */
  lemma {:induction false} SavedPathRoutesAsName(dir: string, name: string)
    requires name != [] && name != "." && '/' !in name
    ensures RouteOf(JoinPath(dir, name)) == RouteOf(name)
  {
    var path := JoinPath(dir, name);
    PathEndsWithName(dir, name);
    if path != name {
      SuffixThroughSlash(path, name, ".pdf");
      SuffixThroughSlash(path, name, ".csv");
      SuffixThroughSlash(path, name, ".xlsx");
      SuffixThroughSlash(path, name, ".xls");
    }
  }

  /** A suffix of a suffix is a suffix. */
  lemma EndsWithChain(s: string, t: string, u: string)
    requires EndsWith(s, t) && EndsWith(t, u)
    ensures EndsWith(s, u)
  {
    assert s[|s| - |u|..] == s[|s| - |t|..][|t| - |u|..];
  }

  /** Appending a suffix free of `c` to a text free of `c` leaves it free of `c`. */
  lemma AppendFree(a: string, b: string, c: char)
    requires c !in a && c !in b
    ensures c !in a + b
  {
    assert forall k :: 0 <= k < |a + b| ==> (a + b)[k] == (if k < |a| then a[k] else b[k - |a|]);
  }

  /** A saved file whose name ends in `.csv` is read as CSV wherever the temporary directory is. */
  lemma {:induction false} CsvFileReadAsCsv(dir: string, file: string)
    requires '/' !in file && EndsWith(file, ".csv")
    ensures RouteOf(JoinPath(dir, file)) == CsvRoute
  {
    assert file != [] && file != ".";
    PathEndsWithName(dir, file);
    EndsWithChain(JoinPath(dir, file), file, ".csv");
  }

  /**
   * A link `…/name.csv?query` with no explicit name and no
   * `Content-Disposition` header is saved under `name.csv` and read as CSV.
   */
  lemma {:induction false} CsvLinkReadAsCsv(base: string, name: string, query: string, dir: string)
    requires name != [] && '/' !in name && '?' !in name && '/' !in query
    ensures ChooseName(base + "/" + name + ".csv" + "?" + query, None, None) == Success(name + ".csv")
    ensures RouteOf(JoinPath(dir, name + ".csv")) == CsvRoute
  {
    var file := name + ".csv";
    AppendFree(name, ".csv", '/');
    AppendFree(name, ".csv", '?');
    assert base + "/" + name + ".csv" + "?" + query == base + "/" + file + "?" + query;
    UrlNameOfLastSegment(base, file, query);
    assert file[|file| - 4..] == ".csv";
    CsvFileReadAsCsv(dir, file);
  }
}

=== FILE: solver.dfy ===
/**
 * One page of a quiz chain (`solve_single_quiz`, `process_task`,
 * `handle_file_task`, `submit_answer`). The browser, the language model, the
 * file download, the file readers and the HTTP POST are outside the model:
 * what each returns, or whether it raises, is a field of `Env`. The model
 * records the calls it makes, in order, and the submission it sends last, so
 * that their order and arguments can be stated.
 */
module Solver {
  import opened Wrappers
  import opened Text
  import opened Config
  import opened Extraction
  import opened Answer
  import opened Download
  import opened Routing

  /** What `solve_single_quiz` returns: `None`, a JSON value that is not an object, or an object. */
  datatype Outcome =
    | NoResult                                   // None: some step raised, or no submission URL
    | NonObject                                  // a JSON reply that is not an object
    | Object(correct: bool, url: Option<string>) // `correct` is the truthiness of the reply's 'correct'

  /** The description handed to the reasoning step with the data. */
  datatype Context = QuestionAnalysis | PdfContent | CsvContent | ExcelContent | FileContent

  /** A call to a collaborator before the submission, with the arguments the model decides. */
  datatype Call =
    | Render(url: string)
    | Analyze(question: string)
    | Fetch(fileUrl: string)
    | ReadFile(route: Route, path: string)
    | Reason(context: Context)

  /** The POST of `submit_answer`: where it goes, the JSON body it carries, and its timeout in seconds. */
  datatype Submission = Submission(endpoint: string, payload: Payload, timeout: nat)

  /**
   * What the collaborators do on this page. `None` (or `false`) means the call
   * raises. The reasoning step always answers with a string.
   */
  datatype Env = Env(
    page: Option<string>,              // the rendered page's text
    analysisOk: bool,                  // the question analysis returns
    fetched: Option<Fetched>,          // the file GET and its status check
    canWrite: string -> bool,          // the downloaded file can be written at this path
    readOk: (Route, string) -> bool,   // the reader for this route can read this path
    reason: Context -> Option<string>, // the answer the model gives with this context
    parsers: Parsers,                  // float, int and json.loads
    reply: Option<Outcome>)            // the POST, its status check and its JSON decoding

  /** The calls made while working out an answer, and the answer if one was obtained. */
  datatype Work = Work(calls: seq<Call>, answer: Option<string>)

  /** One page: the calls made, the submission sent after them if any, and the value returned to the chain. */
  datatype Attempt = Attempt(calls: seq<Call>, post: Option<Submission>, result: Outcome)

  /** The context label for a file read by the reader of `r`. */
  function ContextOf(r: Route): Context {
    match r
    case PdfRoute => PdfContent
    case CsvRoute => CsvContent
    case ExcelRoute => ExcelContent
    case TextRoute => FileContent
  }

  /**
   * `handle_file_task`: download, pick the reader by the saved path's suffix,
   * read, and ask for the answer with that reader's context. Any failure raises.
   */
  function FileTask(fileUrl: string, env: Env, dir: string): (w: Work)
    ensures |w.calls| >= 1 && w.calls[0] == Fetch(fileUrl)
    ensures Reason(QuestionAnalysis) !in w.calls
    ensures w.answer.Some? ==>
              var path := DownloadFile(fileUrl, None, env.fetched, env.canWrite, dir);
              && path.Success?
              && w.calls == [Fetch(fileUrl), ReadFile(RouteOf(path.value), path.value),
                             Reason(ContextOf(RouteOf(path.value)))]
              && env.readOk(RouteOf(path.value), path.value)
              && w.answer == env.reason(ContextOf(RouteOf(path.value)))
    ensures var path := DownloadFile(fileUrl, None, env.fetched, env.canWrite, dir);
            path.Success? ==>
              && |w.calls| >= 2 && w.calls[1] == ReadFile(RouteOf(path.value), path.value)
              && (env.readOk(RouteOf(path.value), path.value) ==> w.answer == env.reason(ContextOf(RouteOf(path.value))))
    ensures DownloadFile(fileUrl, None, env.fetched, env.canWrite, dir).Failure? ==> w == Work([Fetch(fileUrl)], None)
    ensures var path := DownloadFile(fileUrl, None, env.fetched, env.canWrite, dir);
            path.Success? && !env.readOk(RouteOf(path.value), path.value) ==>
              w == Work([Fetch(fileUrl), ReadFile(RouteOf(path.value), path.value)], None)
  {
    match DownloadFile(fileUrl, None, env.fetched, env.canWrite, dir)
    case Failure(_) => Work([Fetch(fileUrl)], None)
    case Success(path) =>
      var route := RouteOf(path);
      if !env.readOk(route, path) then Work([Fetch(fileUrl), ReadFile(route, path)], None)
      else
        var ctx := ContextOf(route);
        Work([Fetch(fileUrl), ReadFile(route, path), Reason(ctx)], env.reason(ctx))
  }

  /** `process_task`: a file link in the question sends it through the file, else the question alone is reasoned about. */
  function ProcessTask(question: string, env: Env, dir: string): (w: Work)
    ensures ExtractFileUrl(question).None? ==> w == Work([Reason(QuestionAnalysis)], env.reason(QuestionAnalysis))
    ensures ExtractFileUrl(question).Some? ==>
              |w.calls| >= 1 && w.calls[0] == Fetch(ExtractFileUrl(question).value)
              && Reason(QuestionAnalysis) !in w.calls
              && w == FileTask(ExtractFileUrl(question).value, env, dir)
    ensures w.answer.Some? ==> |w.calls| >= 1 && w.calls[|w.calls| - 1].Reason?
                               && w.answer == env.reason(w.calls[|w.calls| - 1].context)
  {
    match ExtractFileUrl(question)
    case Some(f) => FileTask(f, env, dir)
    case None => Work([Reason(QuestionAnalysis)], env.reason(QuestionAnalysis))
  }

  /**
   * `solve_single_quiz` on a rendered page whose text is `text`, given the
   * submission URL `found` in that text: analyse, work out the answer, and
   * POST it with the quiz page's own URL.
   */
  function OnPage(quizUrl: string, settings: Settings, env: Env, text: string, found: Option<string>): (a: Attempt)
    ensures |a.calls| >= 2 && a.calls[0] == Render(quizUrl) && a.calls[1] == Analyze(text)
    ensures !env.analysisOk || found.None? ==> a == Attempt([Render(quizUrl), Analyze(text)], None, NoResult)
    ensures ExtractFileUrl(text).Some? ==> Reason(QuestionAnalysis) !in a.calls
    ensures env.analysisOk && found.Some? ==>
              a.calls == [Render(quizUrl), Analyze(text)] + ProcessTask(text, env, settings.tempDir).calls
    ensures a.post.Some? ==>
              var p := a.post.value;
              && env.analysisOk && found == Some(p.endpoint)
              && p.timeout == RequestTimeout
              && p.payload.url == quizUrl && p.payload.email == settings.email && p.payload.secret == settings.secret
              && |a.calls| >= 3 && a.calls[|a.calls| - 1].Reason?
              && var ans := env.reason(a.calls[|a.calls| - 1].context);
                 ans.Some? && p.payload.answer == Format(Str(ans.value), env.parsers)
    ensures env.analysisOk && found.Some? && ProcessTask(text, env, settings.tempDir).answer.Some? ==>
              a.post.Some? && a.result == (if env.reply.Some? then env.reply.value else NoResult)
    ensures a.result != NoResult ==> a.post.Some? && env.reply == Some(a.result)
  {
    var start := [Render(quizUrl), Analyze(text)];
    if !env.analysisOk then Attempt(start, None, NoResult)
    else
      match found
      case None => Attempt(start, None, NoResult)
      case Some(submitUrl) =>
        var w := ProcessTask(text, env, settings.tempDir);
        var calls := start + w.calls;
        match w.answer
        case None => Attempt(calls, None, NoResult)
        case Some(ans) =>
          var payload := MakePayload(settings.email, settings.secret, quizUrl, Str(ans), env.parsers);
          var post := Submission(submitUrl, payload, RequestTimeout);
          match env.reply
          case None => Attempt(calls, Some(post), NoResult)
          case Some(o) => Attempt(calls, Some(post), o)
  }

  /**
   * `solve_single_quiz`: render, analyse, find where to submit, work out the
   * answer, and POST it with the quiz page's own URL; any failure gives `None`.
   */
  function SolveSingle(quizUrl: string, settings: Settings, env: Env): (a: Attempt)
    ensures |a.calls| >= 1 && a.calls[0] == Render(quizUrl)
    ensures env.page.None? ==> a == Attempt([Render(quizUrl)], None, NoResult)
    ensures env.page.Some? && (!env.analysisOk || ExtractSubmitUrl(env.page.value).None?) ==>
              a == Attempt([Render(quizUrl), Analyze(env.page.value)], None, NoResult)
    ensures a.post.Some? ==>
              var p := a.post.value;
              && env.page.Some? && env.analysisOk
              && ExtractSubmitUrl(env.page.value) == Some(p.endpoint)
              && p.timeout == RequestTimeout
              && p.payload.url == quizUrl && p.payload.email == settings.email && p.payload.secret == settings.secret
              && |a.calls| >= 3 && a.calls[|a.calls| - 1].Reason?
              && var ans := env.reason(a.calls[|a.calls| - 1].context);
                 ans.Some? && p.payload.answer == Format(Str(ans.value), env.parsers)
    ensures env.page.Some? && env.analysisOk && ExtractSubmitUrl(env.page.value).Some?
            && ProcessTask(env.page.value, env, settings.tempDir).answer.Some? ==>
              a.post.Some? && a.result == (if env.reply.Some? then env.reply.value else NoResult)
    ensures a.result != NoResult ==> a.post.Some? && env.reply == Some(a.result)
  {
    match env.page
    case None => Attempt([Render(quizUrl)], None, NoResult)
    case Some(text) => OnPage(quizUrl, settings, env, text, ExtractSubmitUrl(text))
  }
}

=== FILE: solver_facts.dfy ===
/** What one page's handling guarantees about where, and whether, an answer is posted. */
module SolverFacts {
  import opened Wrappers
  import opened Text
  import opened Config
  import opened Extraction
  import opened ExtractionFacts
  import opened Answer
  import opened Download
  import opened Routing
  import opened Solver

  /** A page that mentions neither `/submit` nor "Post your answer to " is never answered. */
  lemma {:induction false} NoSubmitTextNeverPosts(quizUrl: string, settings: Settings, env: Env)
    requires env.page.Some?
    requires !Contains(env.page.value, SubmitMarker) && !Contains(env.page.value, PostPrefix)
    ensures var a := SolveSingle(quizUrl, settings, env);
            a.result == NoResult && a.post.None?
  {
    NoSubmitPhraseNoUrl(env.page.value);
  }

  /**
   * A page whose submission URL stands alone in the text, with no earlier
   * mention of `/submit`, is answered at exactly that URL, and is answered
   * whenever the analysis and the task succeed.
   */
  lemma {:induction false} PostsToTheWholeToken(quizUrl: string, settings: Settings, env: Env,
                                               pre: string, tok: string, post: string)
    requires env.page == Some(pre + tok + post)
    requires IsSubmitToken(tok)
    requires !Contains(pre, SubmitMarker)
    requires pre == [] || !InClass(UrlChar, pre[|pre| - 1])
    requires post == [] || !InClass(UrlChar, post[0])
    ensures var a := SolveSingle(quizUrl, settings, env);
            && (a.post.Some? ==> a.post.value.endpoint == tok)
            && (env.analysisOk && ProcessTask(pre + tok + post, env, settings.tempDir).answer.Some? ==>
                  a.post.Some? && a.post.value.endpoint == tok)
  {
    FullSubmitTokenReturned(pre, tok, post);
  }

  /** A question that links a file is answered from the file: the question-only context is never used. */
  lemma {:induction false} FileLinkSkipsQuestionContext(quizUrl: string, settings: Settings, env: Env)
    requires env.page.Some? && ExtractFileUrl(env.page.value).Some?
    ensures var a := SolveSingle(quizUrl, settings, env);
            Reason(QuestionAnalysis) !in a.calls
  {
  }

  /**
   * The posted answer is the reasoning step's answer run through
   * `format_answer`, and nothing of it is lost: it is kept as given, or as
   * its lower-case word when it became a boolean. The body names the quiz
   * page, which the submission endpoint is kept apart from.
   */
  lemma {:induction false} PostedAnswerKeepsReasoning(quizUrl: string, settings: Settings, env: Env)
    ensures var a := SolveSingle(quizUrl, settings, env);
            a.post.Some? ==>
              var p := a.post.value;
              var ans := env.reason(a.calls[|a.calls| - 1].context).value;
              && p.payload.url == quizUrl
              && (p.payload.answer.BoolValue? ==> SourceOf(p.payload.answer) == LowerAscii(ans))
              && (!p.payload.answer.BoolValue? ==> SourceOf(p.payload.answer) == ans)
  {
    var a := SolveSingle(quizUrl, settings, env);
    if a.post.Some? {
      var ans := env.reason(a.calls[|a.calls| - 1].context).value;
      FormatKeepsSource(Str(ans), env.parsers);
    }
  }

  /**
   * A question linking `…/name.csv?query`, downloaded without a
   * `Content-Disposition` header, is read by the CSV reader, and its answer
   * is the one given with the CSV context.
   */
  lemma {:induction false} CsvLinkReadByCsvReader(base: string, name: string, query: string, env: Env, dir: string)
    requires name != [] && '/' !in name && '?' !in name && '/' !in query
    requires env.fetched == Some(Fetched(None))
    ensures var path := JoinPath(dir, name + ".csv");
            var w := FileTask(base + "/" + name + ".csv" + "?" + query, env, dir);
            env.canWrite(path) ==>
              && |w.calls| >= 2 && w.calls[1] == ReadFile(CsvRoute, path)
              && (env.readOk(CsvRoute, path) ==> w.answer == env.reason(CsvContent))
  {
    var url := base + "/" + name + ".csv" + "?" + query;
    CsvLinkReadAsCsv(base, name, query, dir);
    assert ChooseName(url, None, None) == Success(name + ".csv");
  }
}

=== FILE: text.dfy ===
/**
 * String helpers with the meaning Python gives them: `\s`, case-insensitive
 * matching, `in`, `endswith`, `split`, `strip` and `lower`.
 */
module Text {
  import opened Wrappers

  /** Whitespace as `\s` in a str pattern (and `str.isspace`) sees it. */
  predicate IsSpace(c: char) {
    || c in " \t\n\r\U{0B}\U{0C}"
    || ('\U{1C}' <= c <= '\U{1F}')
    || c == '\U{85}' || c == '\U{A0}' || c == '\U{1680}'
    || ('\U{2000}' <= c <= '\U{200A}')
    || c == '\U{2028}' || c == '\U{2029}' || c == '\U{202F}' || c == '\U{205F}' || c == '\U{3000}'
  }

  function UpperAscii(c: char): char {
    if 'a' <= c <= 'z' then (c as int - 32) as char else c
  }

  function LowerAsciiChar(c: char): char {
    if 'A' <= c <= 'Z' then (c as int + 32) as char else c
  }

  /**
   * ASCII lower-casing; exact for comparisons with the ASCII words the program
   * tests. No upper-case ASCII letter survives, every other character is kept,
   * and each upper-case letter becomes the lower-case letter it folds onto.
   */
  function LowerAscii(s: string): (r: string)
    ensures |r| == |s|
    ensures forall i :: 0 <= i < |r| ==> !('A' <= r[i] <= 'Z')
    ensures forall i :: 0 <= i < |s| && !('A' <= s[i] <= 'Z') ==> r[i] == s[i]
    ensures forall i :: 0 <= i < |s| && 'A' <= s[i] <= 'Z' ==> 'a' <= r[i] <= 'z' && FoldEq(s[i], r[i])
  {
    seq(|s|, i requires 0 <= i < |s| => LowerAsciiChar(s[i]))
  }

  /**
   * Whether `c` matches the lower-case pattern character `p` under
   * `re.IGNORECASE`: the character itself, its upper-case form, and the long s
   * that the regex engine folds onto `s`. No other letter the patterns use has
   * a non-ASCII partner.
   */
  predicate FoldEq(c: char, p: char) {
    c == p || c == UpperAscii(p) || (p == 's' && c == '\U{017F}')
  }

  /** `lit` occurs in `s` at position `i`. */
  predicate HasAt(s: string, i: nat, lit: string) {
    i + |lit| <= |s| && s[i..i + |lit|] == lit
  }

  /** `lit` (lower case) occurs in `s` at position `i`, ignoring case; compared character by character. */
  predicate HasFoldAt(s: string, i: nat, lit: string)
    decreases |lit|
  {
    if lit == [] then i <= |s|
    else i < |s| && FoldEq(s[i], lit[0]) && HasFoldAt(s, i + 1, lit[1..])
  }

  /** `HasFoldAt` read position by position. */
  lemma {:induction false} HasFoldAtChars(s: string, i: nat, lit: string)
    ensures HasFoldAt(s, i, lit) <==> i + |lit| <= |s| && forall k :: 0 <= k < |lit| ==> FoldEq(s[i + k], lit[k])
    decreases |lit|
  {
    if lit != [] {
      HasFoldAtChars(s, i + 1, lit[1..]);
      if i + |lit| <= |s| && forall k :: 0 <= k < |lit| ==> FoldEq(s[i + k], lit[k]) {
        assert FoldEq(s[i + 0], lit[0]);
        forall k | 0 <= k < |lit| - 1
          ensures FoldEq(s[i + 1 + k], lit[1..][k])
        {
          assert FoldEq(s[i + (k + 1)], lit[k + 1]);
        }
      }
    }
  }

  /** Python's `s.endswith(suffix)`, case-sensitive. */
  predicate EndsWith(s: string, suffix: string) {
    |suffix| <= |s| && s[|s| - |suffix|..] == suffix
  }

  /** Python's `sub in s` for strings. */
  predicate Contains(s: string, sub: string) {
    exists i | 0 <= i <= |s| :: HasAt(s, i, sub)
  }

  /** The first position at or after `from` where `sub` occurs (Python's `str.find`). */
  function IndexOf(s: string, sub: string, from: nat): (r: Option<nat>)
    requires from <= |s|
    ensures r.Some? ==> from <= r.value <= |s| && HasAt(s, r.value, sub)
    ensures r.Some? ==> forall q :: from <= q < r.value ==> !HasAt(s, q, sub)
    ensures r.None? ==> forall q :: from <= q <= |s| ==> !HasAt(s, q, sub)
    decreases |s| - from
  {
    if HasAt(s, from, sub) then Some(from)
    else if from == |s| then None
    else IndexOf(s, sub, from + 1)
  }

  /** The first index at or after `i` where `b` holds: a left-to-right scan. */
  function FirstTrue(b: seq<bool>, i: nat): (r: Option<nat>)
    requires i <= |b|
    ensures r.Some? ==> i <= r.value < |b| && b[r.value]
    ensures r.Some? ==> forall q :: i <= q < r.value ==> !b[q]
    ensures r.None? ==> forall q :: i <= q < |b| ==> !b[q]
    decreases |b| - i
  {
    if i == |b| then None
    else if b[i] then Some(i)
    else FirstTrue(b, i + 1)
  }

  /** The position of the first `c` in `s`, or `|s|` when there is none. */
  function FirstIndex(s: string, c: char): (r: nat)
    ensures r <= |s|
    ensures forall i :: 0 <= i < r ==> s[i] != c
    ensures r == |s| || s[r] == c
  {
    if |s| == 0 || s[0] == c then 0 else 1 + FirstIndex(s[1..], c)
  }

  /** The position just after the last `c` in `s`, or 0 when there is none. */
  function AfterLast(s: string, c: char): (r: nat)
    ensures r <= |s|
    ensures forall i :: r <= i < |s| ==> s[i] != c
    ensures r == 0 || s[r - 1] == c
  {
    if |s| == 0 then 0
    else if s[|s| - 1] == c then |s|
    else AfterLast(s[..|s| - 1], c)
  }

  /** The number of leading copies of `c` in `s`. */
  function LeadingCount(s: string, c: char): (n: nat)
    ensures n <= |s|
    ensures forall i :: 0 <= i < n ==> s[i] == c
    ensures n == |s| || s[n] != c
  {
    if |s| == 0 || s[0] != c then 0 else 1 + LeadingCount(s[1..], c)
  }

  /** The position where the trailing copies of `c` in `s` begin. */
  function TrailingStart(s: string, c: char): (m: nat)
    ensures m <= |s|
    ensures forall i :: m <= i < |s| ==> s[i] == c
    ensures m == 0 || s[m - 1] != c
  {
    if |s| == 0 || s[|s| - 1] != c then |s| else TrailingStart(s[..|s| - 1], c)
  }

  /** Python's `s.strip(c)` for one character `c`. */
  function Strip(s: string, c: char): (r: string)
    ensures r == [] || (r[0] != c && r[|r| - 1] != c)
    ensures exists a, b :: 0 <= a <= b <= |s| && r == s[a..b]
                           && (forall i :: 0 <= i < a ==> s[i] == c)
                           && (forall i :: b <= i < |s| ==> s[i] == c)
  {
    var rest := s[LeadingCount(s, c)..];
    var m := TrailingStart(rest, c);
    assert rest[..m] == s[LeadingCount(s, c)..LeadingCount(s, c) + m];
    rest[..m]
  }

  /** Python's `s.split(c)` for one character `c`. */
  function SplitOn(s: string, c: char): (parts: seq<string>)
    ensures |parts| >= 1
    ensures forall k :: 0 <= k < |parts| ==> c !in parts[k]
    decreases |s|
  {
    var i := FirstIndex(s, c);
    if i == |s| then [s] else [s[..i]] + SplitOn(s[i + 1..], c)
  }

  /** Python's `c.join(parts)` for one character `c`. */
  function JoinWith(parts: seq<string>, c: char): string {
    if |parts| == 0 then ""
    else if |parts| == 1 then parts[0]
    else parts[0] + [c] + JoinWith(parts[1..], c)
  }

  /** Joining a part in front of a non-empty list puts a separator after it. */
  lemma JoinCons(head: string, rest: seq<string>, c: char)
    requires rest != []
    ensures JoinWith([head] + rest, c) == head + [c] + JoinWith(rest, c)
  {
    assert ([head] + rest)[1..] == rest;
  }

  /** Splitting on `c` and joining with `c` gives back the original string. */
  lemma {:induction false} SplitJoin(s: string, c: char)
    ensures JoinWith(SplitOn(s, c), c) == s
    decreases |s|
  {
    var i := FirstIndex(s, c);
    if i < |s| {
      var head := s[..i];
      var tail := s[i + 1..];
      var rest := SplitOn(tail, c);
      assert SplitOn(s, c) == [head] + rest;
      SplitJoin(tail, c);
      JoinCons(head, rest, c);
      assert s == head + [c] + tail;
    }
  }

  /** Joining after appending one part puts a separator before that part. */
  lemma {:induction false} JoinAppend(parts: seq<string>, c: char, last: string)
    ensures JoinWith(parts + [last], c) == (if parts == [] then last else JoinWith(parts, c) + [c] + last)
    decreases |parts|
  {
    if |parts| >= 2 {
      assert (parts + [last])[1..] == parts[1..] + [last];
      JoinAppend(parts[1..], c, last);
    } else if |parts| == 1 {
      assert parts + [last] == [parts[0], last];
    }
  }
}

=== FILE: wrappers.dfy ===
/** Failure-compatible wrappers shared by every module of the model. */
module Wrappers {

  /** A value that may be absent; Python's `None` becomes `None`. */
  datatype Option<+T> = None | Some(value: T)

  /** A value or the error that replaced it; a raised exception becomes `Failure`. */
  datatype Result<+T, +E> = Success(value: T) | Failure(error: E)
}
